=== FILE: README.md ===
# gomem in Dafny

A model of the core of gomem, a small Go program that keeps a cache of JSON
notes (a title and a content each) found in one directory and lets the user
browse, add, remove and save them through a line-oriented command loop.

The model covers three parts:

- **The document cache (gomem.go).**
  - `Gomem` is one document: title, content, file name (`base`) and an overwrite flag.
  - `New`, `ModOverride`/`IsOverride`, `IsValidFilePath`, `ReadFile` and `WriteFile` operate on one document.
  - `Gomems` is the map from file name to document plus the directory it was scanned from.
  - `AddGomem`, `getBaseJSON`, `IncludeJSON`, `GomemsNew` and `GetDir` operate on the cache.
  - The file system is an abstract disk (`Store.Disk`): a working directory, and for each directory path a flat map from entry name to either a regular file holding a JSON document or a sub-directory.
  - Names are resolved against the working directory, as the program's relative paths are.
- **The command loop (subcmd.go).**
  - The registry maps a command name to a handler, a value and a help text.
  - `Addf`, `SubNewWithBase`, `Exit` and `Help` are modelled.
  - `Repl` is a recursive function over the input lines. It returns the trace of everything written, the final state and how the loop ended.
  - Handlers are functions of the registered value, a session state and the lines not yet read. They report how many lines they read themselves, since they prompt on the same input.
- **The interactive commands (cmd/gomem/commands.go).**
  - The commands are `confirm`, `ls`, `newGomem`, `newGomemWithName`, `writeAll`, `show` and `remove`.
  - They run over an explicit session (cache plus disk) instead of Go's package globals.
  - The two operations commands.go calls but gomem.go does not define (`GetAbs` and `os.Remove`) are parameters (`Commands.Ops`).

Modules, leaves first:

- `Maybe` holds `Option` and `Result`.
- `Strs` holds `strings.HasSuffix`, `strings.TrimSpace`, Unix `filepath.Base`, `%q` and `fmt.Sprintln`.
- `Listing` holds string order and the sorted enumeration of a set of names. `ioutil.ReadDir` lists names in sorted order.
- `Errs` holds the error values and their texts.
- `Store` is the abstract disk.
- `Record` is one document.
- `Cache` is the document map.
- `Interp` is subcmd.go.
- `Commands` is commands.go.

Facts about the code that shape the model:

- `IncludeJSON` scans one directory and does not recurse.
- Keys are bare file names.
- Content is a single string.
- Documents discovered by a scan get `override = false` (gomem.go:148).
- `Repl` looks up the whole trimmed line. subcmd.go has no argument splitting, no queue of pre-supplied lines and no exit callbacks.
- An empty line gets the "invalid subcommand" diagnostic; it is not skipped.

Two behaviours of the code are kept as written:

- `confirm` reads a line before testing its bound `i < 2`, so when the first two lines are not answers it reads and discards a third (`Commands.ConfirmLoop`).
- `IncludeJSON` lists `gs.dir` but loads each file by its bare name, i.e. from the working directory (`Cache.Visit`).

## Model

| member | source | states |
|---|---|---|
| Strs.TrimSpacePadding | subcmd.go:38 | white space around a line does not change the key it is looked up under |
| Strs.TrimSpace | subcmd.go:38 | the result has no white space at either end and is no longer than the line |
| Strs.TrimSpaceInfix | subcmd.go:38 | the result is the infix of the line that starts right after its leading white space, and all that leading part is white space |
| Strs.TrimSpaceTail | subcmd.go:38 | everything after the result in the line is white space |
| Strs.Base | gomem.go:42 | "." for the empty path; otherwise, unless the path is all slashes, the longest slash-free run that ends where the trailing slashes begin |
| Strs.Quote | subcmd.go:40 | `%q` text is delimited by double quotes and never contains a line break, so the diagnostic stays on one line |
| Strs.QuotePlain | subcmd.go:40 | a line of printable characters other than `"` and `\` is quoted as itself between double quotes |
| Strs.BaseOfJsonPath | gomem.go:39-42 | for a path ending in ".json", the file name kept by `New` also ends in ".json", has no '/', and is a suffix of the path |
| Strs.BaseAfterLastSlash | gomem.go:42 | `filepath.Base` of a path is what follows its last slash, when something does |
| Strs.BaseOfPlainName | gomem.go:148 | a name from a directory listing is its own base, so a scanned file is filed under the name it was listed with |
| Listing.SortedNames | gomem.go:167 | the directory listing enumerates each name of the set exactly once, in ascending order |
| Store.Stat | gomem.go:62-66 | `os.Stat` reports missing, regular file or directory, in agreement with the entry the name resolves to |
| Store.Put | gomem.go:96 | writing a file makes the name resolve to the new entry and changes nothing else on the disk |
| Record.New | gomem.go:38-43 | succeeds iff the path ends in ".json"; the error names the path; the document is empty, has the given flag, and its base is the path's last element, itself ending in ".json" and free of '/' |
| Record.NewExamples | gomem_test.go:44-64 | "" and "./test.go" are refused; "./foo.json" gives "foo.json"; "/home/json/test/json.json" gives "json.json" |
| Record.NewRelative | gomem_test.go:44-64 | "./foo.json" gives an empty document with base "foo.json" |
| Record.NewNested | gomem_test.go:44-64 | "/home/json/test/json.json" gives an empty document with base "json.json" |
| Record.ModOverride | gomem.go:46-53 | afterwards `IsOverride` returns the flag given, and title, content and base are unchanged |
| Record.IsValidFilePath | gomem.go:58-68 | no error iff the base ends in ".json" and does not name a directory; otherwise the specific error for each case |
| Record.IsValidFilePathExamples | gomem_test.go:95-101 | the test table: "", "/path/to/file.go" and a directory "dir.json" are refused; an absent "file.json" and an existing regular file are accepted |
| Record.Unmarshal | gomem.go:76-79 | malformed JSON changes nothing and is a syntax error; string fields are assigned; no error iff neither field has another JSON type; base and flag never change |
| Record.ReadFile | gomem.go:71-81 | base and flag are preserved; a missing file and a directory give the open and read errors with the document unchanged; a regular file gives what decoding its contents into the document gives, so the title and content are the file's string fields or the document's old ones (see `Record.Unmarshal`); no error iff the file holds an object whose fields are not mistyped |
| Record.Encode | gomem.go:92-95 | decoding what was encoded, into the same document, gives it back without error |
| Record.EncodeDecode | gomem.go:92-95 | decoding an encoded document into any document takes over exactly its title and content, without error |
| Record.WriteFile | gomem.go:84-100 | any error leaves the disk unchanged; a validation error is returned as is; "file exists" iff the name is valid, a file is there and override is off; success iff valid, (absent or override) and the directory exists; then the file holds the encoded document and nothing else changed |
| Record.WriteThenRead | gomem.go:71-100 | after a successful save, loading the file into any document with that base yields the saved title and content and no error |
| Record.ReadFileIdempotent | gomem.go:71-81 | a successful load repeated on the same disk changes nothing further |
| Cache.AddGomem | gomem.go:119-128 | a nil map and a present key are refused with their errors; otherwise exactly the key `g.base` is added, mapped to `g`, and every other entry is unchanged |
| Cache.AddGomemKeepsKeysMatchBase | gomem.go:119-128 | adding keeps every document filed under its own base |
| Cache.GetBaseJSON | gomem.go:166-178 | a missing directory is an open error; otherwise the sorted, duplicate-free list of exactly the regular entries whose names end in ".json" (sub-directories excluded) |
| Cache.Visit | gomem.go:140-156 | one pass: a present name is replaced by what reading its file into the cached document gives, with that read's error; a new ".json" name is filed even if its load fails, holding what reading file `Base(x)` into an empty document with override off gives, with that read's error; a new name without ".json" is refused with the map unchanged; other names are untouched; without error the document is loaded |
| Cache.Include | gomem.go:140-157 | the loop: no key is removed; only listed names are added; existing entries keep base and flag; unlisted entries are untouched; new entries have override off; without error every listed name is loaded and holds what reading its file into its cached document (or a fresh empty one) gives |
| Cache.IncludeJSON | gomem.go:132-158 | nil map and missing directory errors; the directory is kept; no key is removed; after success every listed file is a key and the keys are the old ones plus the listed names; existing entries keep their flags and new ones have override off; after success every listed file's document loads without error, holds what reading that file into its cached (or a fresh empty) document gives, and every unlisted entry is unchanged |
| Cache.IncludeFixed | gomem.go:140-146 | a loop over names whose documents are already loaded changes nothing |
| Cache.IncludeJSONIdempotent | gomem.go:132-158 | a second rescan with no change on disk leaves keys and documents as the first successful one left them |
| Cache.IncludeSplit | gomem.go:140-157 | the loop over `a + b` is the loop over `a` followed, unless that failed, by the loop over `b` from the map it left |
| Cache.IncludeKeepsUndecodableAt | gomem.go:140-157 | at any position of the list: when the names before it loaded, a new file that fails to decode stops the loop with the syntax error, its empty document already stored, and no later name visited |
| Cache.VisitUndecodable | gomem.go:148-155 | one pass over a new name whose file does not decode files an empty document under it and reports the syntax error |
| Cache.VisitKeepsRefresh | gomem.go:140-156 | after a successful pass, reading any name gives the document it gave before the pass |
| Cache.IncludeJSONKeepsKeysMatchBase | gomem.go:140-156 | a rescan keeps every document filed under its own base |
| Record.ReadFileSucceeds | gomem.go:71-81 | a load succeeds iff the file named by the base is a regular file holding an object with no mistyped field |
| Cache.VisitSucceeds | gomem.go:140-156 | one pass succeeds iff a cached document reloads from its own file, or a new name ends in ".json" and its file loads |
| Cache.VisitKeepsLoads | gomem.go:140-156 | a successful pass does not change whether any name would load |
| Cache.IncludeSucceeds | gomem.go:140-157 | the loop succeeds iff every listed name loads, judged on the map it starts from |
| Cache.IncludeJSONSucceeds | gomem.go:132-158 | a rescan succeeds iff the map is not nil, the directory exists and every "*.json" file listed in it loads |
| Cache.GomemsNew | gomem.go:103-116 | a working directory that no longer exists is the `os.Getwd` error; on success the cache's directory is the working directory, its keys are the ".json" files there, and every flag is off |
| Cache.GomemsNewSucceeds | gomem.go:103-116 | `GomemsNew` succeeds iff the working directory exists and every "*.json" file in it loads |
| Cache.GomemsNewLoaded | gomem.go:103-116 | after `GomemsNew` every document is filed under its own name, is what reading that file into an empty document gives, and reloading it from the disk gives it back unchanged, without error |
| Cache.GetDirStable | gomem.go:161-163 | `GetDir` after `GomemsNew` is the working directory, and adding a document or rescanning does not change it |
| Interp.Addf | subcmd.go:58-64 | upsert: the key set grows by the key, the key maps to the new entry, and every other entry is unchanged |
| Interp.AddfLastWins | subcmd.go:58-64 | registering a name twice keeps only the second registration |
| Interp.SubNewWithBase | subcmd.go:68-73 | exactly the keys "exit" and "help", with their handlers and help texts |
| Interp.Exit | subcmd.go:79-81 | the empty result with the exit signal, state unchanged, nothing read |
| Interp.Help | subcmd.go:84-91 | the text starts with "list commands:\n" and holds, for every registered command, the block "\t<key>\n\t\t<help>\n", whatever the map order |
| Interp.HelpLines | subcmd.go:86-89 | two lines per command in iteration order: the name after one tab, then its help text after two |
| Interp.HelpLinesExact | subcmd.go:84-91 | split at line breaks, the listing is exactly the header and then, per command once, its name line and its help line, and nothing else (when no name or help text spans lines) |
| Interp.HelpBlocksAsLines | subcmd.go:86-89 | the blocks of the listing are the lines of `HelpLines`, each ended by a line break |
| Interp.HelpHasEveryBlock | subcmd.go:84-91 | every registered command's block occurs in the concatenation of the blocks |
| Interp.Eval | subcmd.go:38-53 | a turn never writes the prompt; an unknown key writes the diagnostic of the untrimmed line, keeps the state and continues with the next line; a clean end writes an echo and then a printed result; a failure prints no result |
| Interp.ReplEndsOnExitSignal | subcmd.go:43-48 | any handler returning the exit signal has its echo and its result written after the prompt, and the loop ends cleanly in the handler's state after one line |
| Interp.Call | subcmd.go:43 | exit and help read nothing, write nothing and keep the state; exit gives the empty result with the exit signal; help succeeds with the listing of the registry at dispatch time; a registered function gets its value, the state and the unread lines |
| Interp.EvalUnknown | subcmd.go:38-41 | a line naming no command never ends the loop |
| Interp.EvalSuccess | subcmd.go:43-53 | a handler that succeeds has its echo and then its result written, and the loop goes on with its state after the lines it read |
| Interp.Repl | subcmd.go:28-55 | empty input writes the prompt and ends with the scanner error; the first write is the prompt; the loop reads no more lines than there are; a clean end has read a line and printed a result last |
| Interp.ReplPromptsOncePerRead | subcmd.go:31-32 | the prompt is written once per line the loop reads, plus once when it finds the input exhausted |
| Interp.ReplSkipsUnknown | subcmd.go:38-42 | an unknown line gets the diagnostic, leaves the state alone, and the run continues exactly as on the remaining lines |
| Interp.ReplUnknownText | subcmd.go:31-41 | as text: the prompt, then `invalid subcommand: ` and the line quoted with `%q` and a line break, then the output of the run on the remaining lines |
| Interp.ReplUnknownHead | subcmd.go:31-41 | an unknown first line is answered with the prompt and then its diagnostic |
| Interp.ReplFirstLine | subcmd.go:30-54 | an unfolding step of `Repl`: a run on `[line] + rest` is the first turn followed by the run on what that turn left unread |
| Interp.ReplContinues | subcmd.go:53 | an unfolding step of `Repl`: a turn that does not stop is followed by the run over the lines it left unread, from its state |
| Interp.ReplContinuesLines | subcmd.go:53 | the same unfolding step, for input given as one sequence of lines |
| Interp.EvalExit | subcmd.go:43-48 | the exit command prints its empty result and ends the loop cleanly without reading |
| Interp.ReplExitLine | subcmd.go:38 | "exit" surrounded by any white space ends the base loop cleanly after one line |
| Interp.ReplExitKey | subcmd.go:38-48 | any line that trims to "exit" ends the base loop cleanly |
| Interp.ReplExitArgument | subcmd.go:38-42 | "exit now" is not split: it is an unknown command |
| Interp.ReplStopsOnError | subcmd.go:49-50 | a handler error other than the exit signal ends the loop with that error, and no result is printed |
| Interp.BaseReplNeedsExit | subcmd.go:32-33 | with only the base commands, input without an exit line is read to the end and the loop fails with the scanner error, state unchanged |
| Interp.EvalHelp | subcmd.go:71 | the help command prints the listing of the registry as it stands at dispatch time |
| Interp.ReplHelpLine | subcmd.go:53 | a help line's listing is the third write of the run |
| Interp.ReplPrintsThird | subcmd.go:53 | a turn that prints a result and continues puts that result third in the trace |
| Interp.ReplHelpListsEntry | subcmd.go:84-91 | a help line prints the help text of every registered command |
| Interp.HelpListsLaterCommands | subcmd.go:68-91 | help lists a command added after `SubNewWithBase` |
| Interp.HelpKeepsBaseCommands | subcmd.go:68-91 | help still lists the base "exit" command next to a later one |
| Commands.Read | cmd/gomem/commands.go:25-33 | the next line, or "" at the end of the input, reading at most one line |
| Commands.ConfirmLoop | cmd/gomem/commands.go:38-51 | the second iteration answers yes iff its line is "yes" or "y"; the third only swallows a line; unrecognised lines are echoed with the prompt |
| Commands.Confirm | cmd/gomem/commands.go:36-53 | yes iff the first line is "yes"/"y", or the first is not an answer and the second is; lines read: 0, 1, 2 or 3 as the answers fall; echo: the prompt, then each unrecognised line followed by the prompt again |
| Commands.Normalize | cmd/gomem/commands.go:135-137 | the key ends in ".json"; ".json" is appended only when missing |
| Commands.NormalizeIdempotent | cmd/gomem/commands.go:147-149 | normalising twice is normalising once |
| Commands.Show | cmd/gomem/commands.go:134-145 | an absent key gives "not found:" and the key; a present one gives "[ title ]\n" then the content and a newline |
| Commands.ShowIgnoresSuffix | cmd/gomem/commands.go:135-141 | a name without ".json" and the same name with it show the same thing |
| Commands.Evict | cmd/gomem/commands.go:158 | `delete` removes exactly the key and is a no-op on a nil map |
| Commands.Remove | cmd/gomem/commands.go:146-160 | if the path lookup or the file removal fails, the session is unchanged and the error text is the result; otherwise the disk is the one after removal, exactly the normalised key is evicted, other entries are untouched, and the result names the path |
| Commands.RemoveThenShow | cmd/gomem/commands.go:146-160 | after a successful remove, `show` no longer finds the name |
| Commands.AddNamed | cmd/gomem/commands.go:86-95 | invalid name, nil map and duplicate give their error texts with the session unchanged; otherwise the document with the next two lines as title and content and override on is added under its base |
| Commands.NewGomem | cmd/gomem/commands.go:72-84 | reads path, title and content; an invalid path stops after one line with its error text; on a fresh name the map gains exactly that document with override on and the result is "new gomem key:" and the path; otherwise the session is unchanged; the disk is never touched |
| Commands.NewGomemWithName | cmd/gomem/commands.go:85-96 | as `newGomem` with the path given: a name without ".json" is refused before anything is read; otherwise two lines are read (fewer if the input ends); a nil map gives the add error and a name already cached gives the duplicate error, both with the session unchanged; a fresh name is filed with the two lines and "new gomem included" |
| Commands.NewThenShow | cmd/gomem/commands.go:85-96 | a document just added by name is shown with the title and content that were typed |
| Commands.NewKeepsExisting | cmd/gomem/commands.go:92-94 | adding under an existing key is refused and `show` still shows the old document |
| Strs.SplitLinesOfLines | cmd/gomem/commands.go:65-71 | splitting the output of `ls` at line breaks gives back the keys, when keys contain no line break |
| Commands.Ls | cmd/gomem/commands.go:65-71 | the lines of the result enumerate the cache's keys, each exactly once |
| Commands.WriteEach | cmd/gomem/commands.go:101-105 | the loop never stops at an error; every reported key is one it visited; the working directory and directory set are kept |
| Commands.FailuresAlone | cmd/gomem/commands.go:101-105 | the reference: a key is reported with an error iff saving its document alone on the original disk fails with that error |
| Commands.WriteFileErrLocal | gomem.go:84-100 | whether a save fails depends only on the entry of its own name and on the working directory |
| Commands.WriteEachAlone | cmd/gomem/commands.go:101-105 | with documents filed under their own names, the loop reports exactly the failures of the saves taken alone, stores every other document, and leaves all other files alone, so map order does not matter |
| Commands.WriteAll | cmd/gomem/commands.go:97-109 | the lines read and the echo are `confirm`'s; declined, nothing is written and the result is ""; the cache is never changed |
| Commands.WriteAllReportsFailures | cmd/gomem/commands.go:97-109 | a confirmed write reports one line per failing document, stores the others, and touches no other file |
| Commands.Report | cmd/gomem/commands.go:103 | empty iff nothing failed; split at line breaks, one line per failure in order, the key, a space and the error text (when none of them spans lines) |
| Commands.NewKeepsKeysMatchBase | cmd/gomem/commands.go:80 | `newGomem` keeps every document filed under its own name |
| Commands.NewWithNameKeepsKeysMatchBase | cmd/gomem/commands.go:92 | `newGomemWithName` keeps every document filed under its own name |
| Commands.RemoveKeepsKeysMatchBase | cmd/gomem/commands.go:158 | `remove` keeps every document filed under its own name |
| Commands.Interactive | cmd/gomem/commands.go:172-179 | the registry holds "exit", "help", "ls", "new", "write" and ":q", with ":q" an exit alias |
| Commands.InteractiveByAddf | cmd/gomem/commands.go:172-179 | the registry is the one `SubNewWithBase` and the `Addf` calls for "ls", "new", "write" and ":q" build |
| Commands.InteractiveExits | cmd/gomem/commands.go:179 | a line trimming to "exit" or ":q" ends the loop cleanly |
| Commands.InteractiveGoesOn | cmd/gomem/commands.go:172-185 | every other line, registered or not, leaves the loop running |
| Commands.InteractiveAnswers | cmd/gomem/commands.go:174-176 | `ls`, `new` and `write` always answer without error, so the loop goes on |
| Commands.InteractiveUnknown | subcmd.go:38-41 | a line naming none of the six commands leaves the session loop running |
| Commands.InteractiveStops | cmd/gomem/commands.go:172-185 | a line ends the session loop iff it trims to "exit" or ":q", and then cleanly: the handlers never return an error |
| Commands.EvalNew | cmd/gomem/commands.go:175 | a "new" line runs `newGomem` on the following lines and continues after those it read |
| Commands.ReplNewDocument | cmd/gomem/commands.go:72-84 | "new", path, title, content: the result is printed and the loop continues on the following lines with the document added |
| Commands.NewFresh | cmd/gomem/commands.go:72-84 | on a fresh path `newGomem` reads three lines, echoes nothing, adds the document with override on and answers "new gomem key:" and the path |
| Commands.NewWriteRescan | cmd/gomem/commands.go:85-109 | in an empty directory a document added, saved and then found by a rescan keeps its name, title and content |
| Commands.GomemsNewEmpty | gomem.go:103-116 | a scan of an empty working directory gives an empty cache for that directory |
| Commands.SaveOnly | cmd/gomem/commands.go:97-109 | with one document cached, a confirmed `write` leaves the disk as saving that document alone would |
| Commands.RescanAfterSave | gomem.go:132-158 | a rescan of a directory holding only the saved form of the one cached document changes nothing |

## Left out

- Byte-level JSON is not modelled: the two-space layout and field order of `json.MarshalIndent`, escaping, and `json.Unmarshal`'s key matching, unknown fields and `null`. A file holds an abstract object of two fields, each absent, a string or another JSON kind, or malformed text.
- Record.Unmarshal: reports a mistyped title before a mistyped content. Go reports the first one in document order, which the abstract object does not record.
- File-system errors other than a missing entry and a directory are not modelled: permissions, I/O errors, symbolic links and special files. Nor is `WritePerm`. `os.Getwd` is modelled as failing only when the working directory is no longer on the disk (`Errs.NoCwd`). The disk has only regular files and directories.
- The `sc.Err()` branch of `Repl` (subcmd.go:35-37) is not modelled, nor are read errors: the input is a sequence of lines, so over-long lines and read errors do not arise.
- The scanner's buffering is not modelled. commands.go makes a fresh `bufio.Scanner` per `read` and `confirm`, which can swallow more than one line of a shared reader. Each read here takes exactly one line.
- The prompts `read` prints go to standard output, not to the session writer. They are not part of the trace. `confirm`'s prompts, which go to the session writer, are.
- Map iteration order is not modelled. `Help`, `ls` and `writeAll` take an order that enumerates the keys, and their properties hold for every such order. Inside `Repl` the model uses the sorted order.
- `la`, `state` and `cd` (cmd/gomem/commands.go:56-64, 110-133) and their registrations are not modelled; they print or change the process working directory. cmd/gomem/main.go and `run` are not part of this model.
- `Addfa` and argument dispatch belong to a later interpreter API that subcmd.go does not have. `show`, `remove` and `newGomemWithName` are modelled as functions of their argument, not as `Repl` commands.
- `GetAbs` and `os.Remove` are not defined in gomem.go. They are parameters (`Commands.Ops`) that either succeed or return an error text.
- interactive.go is an older copy of the handlers and is not modelled. Its `writeAll` calls `err.Error()` on every document, including those saved without error (interactive.go:89-90); that would panic on the first successful save.
- Pointer sharing is not modelled. The Go map holds `*Gomem` and updates documents in place; here every update yields a new map.
- `%q` is modelled only for ASCII control characters, quotes and backslashes. Other code points are copied as they are; strconv.Quote's `\u` escapes for non-printable Unicode and its handling of invalid UTF-8 are left out.
- Listing: names are compared by code point. Go compares UTF-8 bytes; the two orders agree on valid text.
- The content type is a string, as in gomem.go. The later API's `[]string` content is left out.

=== FILE: cache.dfy ===
/** The document cache, the `Gomems` struct of gomem.go: a map from file name
    to document and the directory it was scanned from. Go's `map[string]*Gomem`
    holds pointers that the cache updates in place; here the map holds the
    records themselves and every update yields a new map. */
module Cache {
  import opened Maybe
  import opened Strs
  import opened Listing
  import opened Errs
  import opened Store
  import opened Record

  /** `gmap` is `None` for a nil Go map. */
  datatype Gomems = Gomems(gmap: Option<map<string, Gomem>>, dir: string)

  /** The entries of a cache; a nil map reads as empty, as in Go. */
  function Entries(gs: Gomems): map<string, Gomem> {
    if gs.gmap.Some? then gs.gmap.value else map[]
  }

  /** Every document is filed under its own file name. */
  ghost predicate KeysMatchBase(m: map<string, Gomem>) {
    forall k :: k in m ==> m[k].base == k
  }

  /** `AddGomem`: insert a new document under its file name; a nil map and a
      name already present are refused. */
  function AddGomem(gs: Gomems, g: Gomem): (r: Result<Gomems, Error>)
    ensures gs.gmap.None? ==> r == Err(AddNilMap)
    ensures gs.gmap.Some? && g.base in gs.gmap.value ==> r == Err(Duplicate(g.base))
    ensures r.Ok? <==> gs.gmap.Some? && g.base !in gs.gmap.value
    ensures r.Ok? ==> && r.value.dir == gs.dir && r.value.gmap.Some?
                      && r.value.gmap.value.Keys == gs.gmap.value.Keys + {g.base}
                      && r.value.gmap.value[g.base] == g
                      && (forall k :: k in gs.gmap.value ==> r.value.gmap.value[k] == gs.gmap.value[k])
  {
    match gs.gmap
    case None => Err(AddNilMap)
    case Some(m) =>
      if g.base in m then Err(Duplicate(g.base))
      else Ok(gs.(gmap := Some(m[g.base := g])))
  }

  /** Adding a document filed under its own name keeps every document filed
      under its own name. */
  lemma AddGomemKeepsKeysMatchBase(gs: Gomems, g: Gomem)
    requires gs.gmap.Some? && KeysMatchBase(gs.gmap.value)
    requires AddGomem(gs, g).Ok?
    ensures KeysMatchBase(AddGomem(gs, g).value.gmap.value)
  {
  }

  /** `GetDir`: the directory the cache scans. */
  function GetDir(gs: Gomems): string {
    gs.dir
  }

  /** `getBaseJSON`: the names of the regular "*.json" files directly inside
      `dir`, in the name order `ioutil.ReadDir` returns them. */
  function GetBaseJSON(d: Disk, dir: string): (r: Result<seq<string>, Error>)
    ensures dir !in d.dirs ==> r == Err(NoEntry("open", dir))
    ensures dir in d.dirs ==> r.Ok? && Sorted(r.value) && Distinct(r.value)
    ensures r.Ok? ==> forall n :: n in r.value <==>
                        n in d.dirs[dir] && d.dirs[dir][n].Regular? && HasSuffix(n, JsonExt)
  {
    if dir !in d.dirs then Err(NoEntry("open", dir))
    else
      var entries := d.dirs[dir];
      Ok(SortedNames(set n | n in entries && entries[n].Regular? && HasSuffix(n, JsonExt)))
  }

  /** The map after a rescan loop, and the error that stopped it if any. */
  datatype Fold = Fold(m: map<string, Gomem>, err: Option<Error>)

  /** One pass of the loop of `IncludeJSON`: a name already present is
      reloaded in place; a new name gets a fresh document (override off)
      that is stored BEFORE it is loaded, so a failed load leaves it in the
      map. */
  function Visit(m: map<string, Gomem>, x: string, d: Disk): (r: Fold)
    ensures m.Keys <= r.m.Keys <= m.Keys + {x}
    ensures forall k :: k in m && k != x ==> r.m[k] == m[k]
    ensures x in m ==> r.m[x].base == m[x].base && r.m[x].override == m[x].override
    ensures x in r.m && x !in m ==> r.m[x].base == Base(x) && !r.m[x].override
    ensures x in m ==> r.m[x] == ReadFile(m[x], d).g && r.err == ReadFile(m[x], d).err
    ensures x !in m && HasSuffix(x, JsonExt) ==>
              && x in r.m
              && r.m[x] == ReadFile(Gomem("", "", Base(x), false), d).g
              && r.err == ReadFile(Gomem("", "", Base(x), false), d).err
    ensures r.err.None? ==> x in r.m && ReadFile(r.m[x], d) == Loaded(r.m[x], None)
    ensures x !in m && !HasSuffix(x, JsonExt) ==> r.m == m && r.err == Some(NotJsonPath(x))
  {
    if x in m then
      var l := ReadFile(m[x], d);
      ReadFileIdempotent(m[x], d);
      Fold(m[x := l.g], l.err)
    else
      match New(x, false)
      case Err(e) => Fold(m, Some(e))
      case Ok(g) =>
        var l := ReadFile(g, d);
        ReadFileIdempotent(g, d);
        Fold(m[x := l.g], l.err)
  }

  /** The loop of `IncludeJSON`; the first error ends it. */
  function Include(m: map<string, Gomem>, bases: seq<string>, d: Disk): (r: Fold)
    ensures m.Keys <= r.m.Keys
    ensures forall k :: k in r.m ==> k in m || k in bases
    ensures forall k :: k in m && k !in bases ==> r.m[k] == m[k]
    ensures forall k :: k in m ==> r.m[k].base == m[k].base && r.m[k].override == m[k].override
    ensures forall k :: k in r.m && k !in m ==> r.m[k].base == Base(k) && !r.m[k].override
    ensures r.err.None? ==> forall x :: x in bases ==> x in r.m && ReadFile(r.m[x], d) == Loaded(r.m[x], None)
    ensures r.err.None? ==> forall x :: x in bases ==> r.m[x] == ReadFile(Cached(m, x), d).g
    decreases |bases|
  {
    if bases == [] then Fold(m, None)
    else
      var v := Visit(m, bases[0], d);
      if v.err.Some? then v
      else
        VisitKeepsRefresh(m, bases[0], d);
        assert forall x :: x in bases <==> x == bases[0] || x in bases[1..];
        Include(v.m, bases[1..], d)
  }

  /** After a pass that succeeds, loading any name gives what it gave
      before: the name just loaded is already in its loaded state, and
      every other name is untouched. */
  lemma VisitKeepsRefresh(m: map<string, Gomem>, x: string, d: Disk)
    requires Visit(m, x, d).err.None?
    ensures forall y :: ReadFile(Cached(Visit(m, x, d).m, y), d).g == ReadFile(Cached(m, y), d).g
  {
  }

  /** The outcome of a rescan: the cache afterwards and the error if any. */
  datatype Step = Step(gs: Gomems, err: Option<Error>)

  /** `IncludeJSON`: rescan `gs.dir` and load every "*.json" file found. */
  function IncludeJSON(gs: Gomems, d: Disk): (r: Step)
    ensures gs.gmap.None? ==> r == Step(gs, Some(IncludeNilMap))
    ensures gs.gmap.Some? && gs.dir !in d.dirs ==> r == Step(gs, Some(NoEntry("open", gs.dir)))
    ensures r.gs.dir == gs.dir
    ensures gs.gmap.Some? ==> r.gs.gmap.Some? && gs.gmap.value.Keys <= r.gs.gmap.value.Keys
    ensures r.err.None? ==> && gs.gmap.Some? && gs.dir in d.dirs
                            && ListedIn(r.gs.gmap.value, d.dirs[gs.dir])
                            && r.gs.gmap.value.Keys == gs.gmap.value.Keys + JsonNames(d.dirs[gs.dir])
    ensures gs.gmap.Some? ==> forall k :: k in gs.gmap.value ==>
              r.gs.gmap.value[k].base == gs.gmap.value[k].base
              && r.gs.gmap.value[k].override == gs.gmap.value[k].override
    ensures gs.gmap.Some? ==> forall k :: k in r.gs.gmap.value && k !in gs.gmap.value ==>
              r.gs.gmap.value[k].base == Base(k) && !r.gs.gmap.value[k].override
    ensures r.err.None? ==> forall k :: k in JsonNames(d.dirs[gs.dir]) ==>
              ReadFile(r.gs.gmap.value[k], d) == Loaded(r.gs.gmap.value[k], None)
    ensures r.err.None? ==> forall k :: k in gs.gmap.value && k !in JsonNames(d.dirs[gs.dir]) ==>
              r.gs.gmap.value[k] == gs.gmap.value[k]
    ensures r.err.None? ==> forall k :: k in JsonNames(d.dirs[gs.dir]) ==>
              r.gs.gmap.value[k] == ReadFile(Cached(gs.gmap.value, k), d).g
  {
    match gs.gmap
    case None => Step(gs, Some(IncludeNilMap))
    case Some(m) =>
      match GetBaseJSON(d, gs.dir)
      case Err(e) => Step(gs, Some(e))
      case Ok(bases) =>
        var f := Include(m, bases, d);
        Step(gs.(gmap := Some(f.m)), f.err)
  }

  /** The names `getBaseJSON` lists for a directory, as a set. */
  ghost function JsonNames(entries: Dir): set<string> {
    set n | n in entries && entries[n].Regular? && HasSuffix(n, JsonExt)
  }

  /** Every regular "*.json" file of the directory is a key of `m`. */
  ghost predicate ListedIn(m: map<string, Gomem>, entries: Dir) {
    forall n :: n in entries && entries[n].Regular? && HasSuffix(n, JsonExt) ==> n in m
  }

  /** A loop over names whose documents are all loaded already changes
      nothing. */
  lemma {:induction false} IncludeFixed(m: map<string, Gomem>, bases: seq<string>, d: Disk)
    requires forall x :: x in bases ==> x in m && ReadFile(m[x], d) == Loaded(m[x], None)
    ensures Include(m, bases, d) == Fold(m, None)
    decreases |bases|
  {
    if bases != [] {
      var x := bases[0];
      assert x in m;
      assert m[x := m[x]] == m;
      IncludeFixed(m, bases[1..], d);
    }
  }

  /** A rescan with no change on disk in between leaves the cache as the
      previous successful rescan left it. */
  lemma IncludeJSONIdempotent(gs: Gomems, d: Disk)
    requires IncludeJSON(gs, d).err.None?
    ensures IncludeJSON(IncludeJSON(gs, d).gs, d) == IncludeJSON(gs, d)
  {
    var bases := GetBaseJSON(d, gs.dir).value;
    var f := Include(gs.gmap.value, bases, d);
    IncludeFixed(f.m, bases, d);
  }

  /** Running the loop over `a + b` is running it over `a` and then, unless
      that stopped on an error, over `b` starting from the map it left. */
  lemma {:induction false} IncludeSplit(m: map<string, Gomem>, a: seq<string>, b: seq<string>, d: Disk)
    ensures Include(m, a + b, d) == (var f := Include(m, a, d); if f.err.Some? then f else Include(f.m, b, d))
    decreases |a|
  {
    if a == [] {
      assert a + b == b;
    } else {
      assert (a + b)[0] == a[0];
      assert (a + b)[1..] == a[1..] + b;
      var v := Visit(m, a[0], d);
      if v.err.None? {
        IncludeSplit(v.m, a[1..], b, d);
      }
    }
  }

  /** A new file that fails to decode stops the loop where it is listed: the
      names before it have been loaded, its (empty) document has already been
      filed under its name, and the names after it are not visited. */
  lemma IncludeKeepsUndecodableAt(m: map<string, Gomem>, bases: seq<string>, d: Disk, i: nat, reason: string)
    requires i < |bases| && Include(m, bases[..i], d).err.None?
    requires bases[i] !in m && bases[i] !in bases[..i] && bases[i] != "" && '/' !in bases[i]
    requires HasSuffix(bases[i], JsonExt)
    requires Lookup(d, bases[i]) == Some(Regular(Malformed(reason)))
    ensures Include(m, bases, d) ==
              Fold(Include(m, bases[..i], d).m[bases[i] := Gomem("", "", bases[i], false)], Some(Syntax(reason)))
  {
    var x := bases[i];
    var f := Include(m, bases[..i], d);
    assert x !in f.m;
    VisitUndecodable(f.m, x, d, reason);
    assert bases == bases[..i] + bases[i..];
    IncludeSplit(m, bases[..i], bases[i..], d);
    assert bases[i..][0] == x;
  }

  /** One pass over a new name whose file does not decode. */
  lemma VisitUndecodable(m: map<string, Gomem>, x: string, d: Disk, reason: string)
    requires x !in m && x != "" && '/' !in x && HasSuffix(x, JsonExt)
    requires Lookup(d, x) == Some(Regular(Malformed(reason)))
    ensures Visit(m, x, d) == Fold(m[x := Gomem("", "", x, false)], Some(Syntax(reason)))
  {
    BaseOfPlainName(x);
  }

  /** The document one pass of the loop loads `x` into: the cached one, or
      for a name not cached yet a fresh empty one filed under its last path
      element. */
  ghost function Cached(m: map<string, Gomem>, x: string): Gomem {
    if x in m then m[x] else Gomem("", "", Base(x), false)
  }

  /** On a disk whose entry names are single path elements, a rescan keeps
      every document filed under its own name. */
  lemma IncludeJSONKeepsKeysMatchBase(gs: Gomems, d: Disk)
    requires PlainNames(d)
    requires gs.gmap.Some? && KeysMatchBase(gs.gmap.value)
    ensures KeysMatchBase(IncludeJSON(gs, d).gs.gmap.value)
  {
    var m := gs.gmap.value;
    var r := IncludeJSON(gs, d).gs.gmap.value;
    forall k | k in r
      ensures r[k].base == k
    {
      if k !in m {
        BaseOfPlainName(k);
      }
    }
  }

  /** `GomemsNew`: a cache over the working directory, filled by a rescan.
      A working directory that no longer exists makes `os.Getwd` fail
      before any scan. */
  function GomemsNew(d: Disk): (r: Result<Gomems, Error>)
    ensures d.cwd !in d.dirs ==> r == Err(NoCwd)
    ensures r.Ok? ==> && r.value.dir == d.cwd && r.value.gmap.Some? && d.cwd in d.dirs
                      && r.value.gmap.value.Keys == JsonNames(d.dirs[d.cwd])
                      && (forall k :: k in r.value.gmap.value ==> !r.value.gmap.value[k].override)
  {
    if d.cwd !in d.dirs then Err(NoCwd)
    else
      var st := IncludeJSON(Gomems(Some(map[]), d.cwd), d);
      if st.err.Some? then Err(st.err.value) else Ok(st.gs)
  }

  /** After `GomemsNew` every document is loaded and filed under its own
      name. */
  lemma GomemsNewLoaded(d: Disk)
    requires PlainNames(d)
    requires GomemsNew(d).Ok?
    ensures KeysMatchBase(GomemsNew(d).value.gmap.value)
    ensures forall k :: k in GomemsNew(d).value.gmap.value ==>
              ReadFile(GomemsNew(d).value.gmap.value[k], d) == Loaded(GomemsNew(d).value.gmap.value[k], None)
    ensures forall k :: k in GomemsNew(d).value.gmap.value ==>
              GomemsNew(d).value.gmap.value[k] == ReadFile(Gomem("", "", k, false), d).g
  {
    IncludeJSONKeepsKeysMatchBase(Gomems(Some(map[]), d.cwd), d);
  }

  /** The directory `GetDir` reports is fixed when the cache is made:
      `GomemsNew` sets it to the working directory, and neither adding a
      document nor rescanning moves it. */
  lemma GetDirStable(gs: Gomems, g: Gomem, d: Disk)
    ensures GomemsNew(d).Ok? ==> GetDir(GomemsNew(d).value) == d.cwd
    ensures AddGomem(gs, g).Ok? ==> GetDir(AddGomem(gs, g).value) == GetDir(gs)
    ensures GetDir(IncludeJSON(gs, d).gs) == GetDir(gs)
  {
  }

  /** When one pass of the rescan loop succeeds for name `x`: a cached
      document must reload from its own file; a new name must end in
      ".json" and its file must load. */
  ghost predicate Loads(m: map<string, Gomem>, x: string, d: Disk) {
    if x in m then Loadable(d, m[x].base) else HasSuffix(x, JsonExt) && Loadable(d, Base(x))
  }

  lemma VisitSucceeds(m: map<string, Gomem>, x: string, d: Disk)
    ensures Visit(m, x, d).err.None? <==> Loads(m, x, d)
  {
    if x in m {
      ReadFileSucceeds(m[x], d);
    } else if HasSuffix(x, JsonExt) {
      ReadFileSucceeds(New(x, false).value, d);
    }
  }

  /** A successful pass changes no name's chance of loading: it keeps every
      base, and the name it visited loads both before and after. */
  lemma VisitKeepsLoads(m: map<string, Gomem>, x: string, d: Disk, y: string)
    requires Visit(m, x, d).err.None?
    ensures Loads(Visit(m, x, d).m, y, d) <==> Loads(m, y, d)
  {
    var v := Visit(m, x, d);
    VisitSucceeds(m, x, d);
    if y == x {
      ReadFileSucceeds(v.m[x], d);
    }
  }

  /** The loop succeeds exactly when every name it is given loads, judged on
      the map it starts from. */
  lemma {:induction false} IncludeSucceeds(m: map<string, Gomem>, bases: seq<string>, d: Disk)
    ensures Include(m, bases, d).err.None? <==> forall x :: x in bases ==> Loads(m, x, d)
    decreases |bases|
  {
    if bases != [] {
      var v := Visit(m, bases[0], d);
      VisitSucceeds(m, bases[0], d);
      if v.err.None? {
        IncludeSucceeds(v.m, bases[1..], d);
        forall y | y in bases[1..]
          ensures Loads(v.m, y, d) <==> Loads(m, y, d)
        {
          VisitKeepsLoads(m, bases[0], d, y);
        }
        assert forall x :: x in bases <==> x == bases[0] || x in bases[1..];
      }
    }
  }

  /** `IncludeJSON` succeeds exactly when the map is not nil, the directory
      exists, and every "*.json" file listed in it loads. */
  lemma IncludeJSONSucceeds(gs: Gomems, d: Disk)
    ensures IncludeJSON(gs, d).err.None? <==>
              && gs.gmap.Some? && gs.dir in d.dirs
              && forall x :: x in JsonNames(d.dirs[gs.dir]) ==> Loads(gs.gmap.value, x, d)
  {
    if gs.gmap.Some? && gs.dir in d.dirs {
      var bases := GetBaseJSON(d, gs.dir).value;
      IncludeSucceeds(gs.gmap.value, bases, d);
    }
  }

  /** `GomemsNew` succeeds exactly when the working directory exists and
      every "*.json" file in it loads. */
  lemma GomemsNewSucceeds(d: Disk)
    ensures GomemsNew(d).Ok? <==>
              d.cwd in d.dirs && forall x :: x in JsonNames(d.dirs[d.cwd]) ==> Loadable(d, Base(x))
  {
    if d.cwd in d.dirs {
      IncludeJSONSucceeds(Gomems(Some(map[]), d.cwd), d);
    }
  }
}

=== FILE: commands.dfy ===
/** The interactive commands of cmd/gomem/commands.go, over a session that
    holds the document cache and the disk. Handlers that prompt read from
    the same input as the loop; here they take the lines not yet read and
    report how many they used. Go's package globals `igs`, `interReader`
    and `interWriter` become the session, the input lines and the echo. */
module Commands {
  import opened Maybe
  import opened Strs
  import opened Listing
  import opened Errs
  import opened Store
  import opened Record
  import opened Cache
  import opened Interp

  datatype Session = Session(gs: Gomems, disk: Disk)

  /** What a handler hands back: the session afterwards, the number of
      input lines it read, what it wrote while running, and its result. */
  datatype Done = Done(s: Session, used: nat, echo: string, result: string)

  /** The line `read` returns, and how many lines it used: at the end of
      the input the scanner yields the empty text. */
  datatype Got = Got(text: string, used: nat)

  function Read(lines: seq<string>): (r: Got)
    ensures r.used <= 1 && r.used <= |lines|
    ensures |lines| > 0 ==> r == Got(lines[0], 1)
    ensures |lines| == 0 ==> r == Got("", 0)
  {
    if |lines| == 0 then Got("", 0) else Got(lines[0], 1)
  }

  // ---------------------------------------------------------------- confirm

  function ConfirmPrompt(msg: string): string {
    msg + " [yes:no]?>"
  }

  predicate IsYes(line: string) {
    line == "yes" || line == "y"
  }

  predicate IsNo(line: string) {
    line == "no" || line == "n"
  }

  predicate Known(line: string) {
    IsYes(line) || IsNo(line)
  }

  /** The verdict of `confirm`, the lines it read and what it echoed. */
  datatype Answer = Answer(yes: bool, used: nat, echo: string)

  /** The echo for line `j` if `confirm` reads it and does not recognise
      it. */
  function Reprompt(msg: string, lines: seq<string>, j: nat): string {
    if j < |lines| && !Known(lines[j]) then lines[j] + "\n" + ConfirmPrompt(msg) else ""
  }

  /** The loop of `confirm` from iteration `i` on. The scanner reads a line
      before the bound `i < 2` is tested, so a third line is read (and
      ignored) when the first two are not answers. */
  function ConfirmLoop(msg: string, lines: seq<string>, i: nat): (r: Answer)
    requires i <= 2
    ensures r.used <= |lines|
    ensures i == 2 ==> r == Answer(false, if |lines| == 0 then 0 else 1, "")
    ensures i == 1 ==> && (r.yes <==> |lines| > 0 && IsYes(lines[0]))
                       && r.used == (if |lines| == 0 then 0
                                     else if Known(lines[0]) || |lines| == 1 then 1
                                     else 2)
                       && r.echo == Reprompt(msg, lines, 0)
    decreases 2 - i
  {
    if |lines| == 0 then Answer(false, 0, "")
    else if i == 2 then Answer(false, 1, "")
    else if IsYes(lines[0]) then Answer(true, 1, "")
    else if IsNo(lines[0]) then Answer(false, 1, "")
    else
      var a := ConfirmLoop(msg, lines[1..], i + 1);
      Answer(a.yes, a.used + 1, lines[0] + "\n" + ConfirmPrompt(msg) + a.echo)
  }

  /** `confirm`: the answer is the first of the first two lines that is
      exactly "yes", "y", "no" or "n"; with neither, or at the end of the
      input, it is no. Each unrecognised line is echoed and the prompt
      written again. */
  function Confirm(msg: string, lines: seq<string>): (r: Answer)
    ensures r.yes <==> || (|lines| > 0 && IsYes(lines[0]))
                       || (|lines| > 1 && !Known(lines[0]) && IsYes(lines[1]))
    ensures r.used == if |lines| == 0 then 0
                      else if Known(lines[0]) || |lines| == 1 then 1
                      else if Known(lines[1]) || |lines| == 2 then 2
                      else 3
    ensures r.echo == ConfirmPrompt(msg) + Reprompt(msg, lines, 0)
                      + (if |lines| > 0 && !Known(lines[0]) then Reprompt(msg, lines, 1) else "")
  {
    var a := ConfirmLoop(msg, lines, 0);
    if |lines| > 0 && !Known(lines[0]) then
      var tail := lines[1..];
      assert Reprompt(msg, tail, 0) == Reprompt(msg, lines, 1);
      Answer(a.yes, a.used, ConfirmPrompt(msg) + a.echo)
    else
      Answer(a.yes, a.used, ConfirmPrompt(msg) + a.echo)
  }

  // ------------------------------------------------------ show and remove

  /** The key a typed name stands for: ".json" is appended when missing. */
  function Normalize(name: string): (r: string)
    ensures HasSuffix(r, JsonExt)
    ensures HasSuffix(name, JsonExt) ==> r == name
    ensures !HasSuffix(name, JsonExt) ==> r == name + JsonExt
  {
    if HasSuffix(name, JsonExt) then name else name + JsonExt
  }

  lemma NormalizeIdempotent(name: string)
    ensures Normalize(Normalize(name)) == Normalize(name)
  {
  }

  /** `fmt.Sprintln("[", title, "]")` followed by `fmt.Sprintln(content)`. */
  function Shown(g: Gomem): string {
    "[ " + g.title + " ]\n" + g.content + "\n"
  }

  /** `show`: title and content of the document a name stands for. */
  function Show(s: Session, name: string): (r: string)
    ensures Normalize(name) !in Entries(s.gs) ==> r == "not found:" + Normalize(name)
    ensures Normalize(name) in Entries(s.gs) ==> r == Shown(Entries(s.gs)[Normalize(name)])
  {
    var key := Normalize(name);
    if key in Entries(s.gs) then Shown(Entries(s.gs)[key]) else "not found:" + key
  }

  /** A name without ".json" and the same name with it show the same
      document. */
  lemma ShowIgnoresSuffix(s: Session, name: string)
    requires !HasSuffix(name, JsonExt)
    ensures Show(s, name) == Show(s, name + JsonExt)
  {
    assert HasSuffix(name + JsonExt, JsonExt) by {
      assert (name + JsonExt)[|name + JsonExt| - |JsonExt|..] == JsonExt;
    }
  }

  /** The operations `remove` calls that this model does not define: the
      absolute path of a cached name, and deleting a file. Each either
      succeeds or reports the text of its error. */
  datatype Ops = Ops(getAbs: (Gomems, string) -> Result<string, string>,
                     remove: (Disk, string) -> Result<Disk, string>)

  /** Go's `delete` on a map; on a nil map it does nothing. */
  function Evict(gs: Gomems, key: string): (r: Gomems)
    ensures r.dir == gs.dir && r.gmap.Some? == gs.gmap.Some?
    ensures Entries(r).Keys == Entries(gs).Keys - {key}
    ensures forall k :: k in Entries(r) ==> Entries(r)[k] == Entries(gs)[k]
  {
    match gs.gmap
    case None => gs
    case Some(m) => gs.(gmap := Some(m - {key}))
  }

  /** Both operations `remove` calls succeed for `name`. */
  predicate Removable(s: Session, ops: Ops, name: string) {
    && ops.getAbs(s.gs, Normalize(name)).Ok?
    && ops.remove(s.disk, ops.getAbs(s.gs, Normalize(name)).value).Ok?
  }

  /** `remove`: delete the file first, and drop the document from the cache
      only once that succeeded; on either error the session is unchanged
      and the error text is the result. */
  function Remove(s: Session, ops: Ops, name: string): (r: Done)
    ensures r.used == 0 && r.echo == ""
    ensures ops.getAbs(s.gs, Normalize(name)).Err? ==>
              r == Done(s, 0, "", ops.getAbs(s.gs, Normalize(name)).error)
    ensures ops.getAbs(s.gs, Normalize(name)).Ok? && !Removable(s, ops, name) ==>
              r == Done(s, 0, "", ops.remove(s.disk, ops.getAbs(s.gs, Normalize(name)).value).error)
    ensures Removable(s, ops, name) ==>
              var path := ops.getAbs(s.gs, Normalize(name)).value;
              && r.s.disk == ops.remove(s.disk, path).value
              && r.result == path + " is removed"
              && r.s.gs.dir == s.gs.dir
              && Entries(r.s.gs).Keys == Entries(s.gs).Keys - {Normalize(name)}
              && (forall k :: k in Entries(r.s.gs) ==> Entries(r.s.gs)[k] == Entries(s.gs)[k])
  {
    var key := Normalize(name);
    match ops.getAbs(s.gs, key)
    case Err(e) => Done(s, 0, "", e)
    case Ok(path) =>
      match ops.remove(s.disk, path)
      case Err(e) => Done(s, 0, "", e)
      case Ok(disk) => Done(Session(Evict(s.gs, key), disk), 0, "", path + " is removed")
  }

  /** After a successful `remove`, `show` no longer finds the name. */
  lemma RemoveThenShow(s: Session, ops: Ops, name: string)
    requires Removable(s, ops, name)
    ensures Show(Remove(s, ops, name).s, name) == "not found:" + Normalize(name)
  {
  }

  // --------------------------------------------------- new documents

  /** Line `i` of the input, or the empty text `read` yields past its end. */
  function LineOr(lines: seq<string>, i: nat): string {
    if i < |lines| then lines[i] else ""
  }

  /** The steps `newGomem` and `newGomemWithName` share once the path is
      known: check it, read the title and the content, add the document
      with override on. Every error becomes the result text. */
  function AddNamed(s: Session, fpath: string, lines: seq<string>, ok: string): (r: Done)
    ensures r.echo == "" && r.s.disk == s.disk && r.used <= |lines| && r.used <= 2
    ensures !HasSuffix(fpath, JsonExt) ==> r == Done(s, 0, "", Message(NotJsonPath(fpath)))
    ensures HasSuffix(fpath, JsonExt) ==> r.used == if |lines| < 2 then |lines| else 2
    ensures HasSuffix(fpath, JsonExt) && s.gs.gmap.None? ==> r.s == s && r.result == Message(AddNilMap)
    ensures HasSuffix(fpath, JsonExt) && Base(fpath) in Entries(s.gs) && s.gs.gmap.Some? ==>
              r.s == s && r.result == Message(Duplicate(Base(fpath)))
    ensures Fresh(s, fpath) ==>
              && r.result == ok && r.s.gs.dir == s.gs.dir && r.s.gs.gmap.Some?
              && r.s.gs.gmap.value == s.gs.gmap.value[Base(fpath) := Gomem(LineOr(lines, 0), LineOr(lines, 1), Base(fpath), true)]
  {
    match New(fpath, true)
    case Err(e) => Done(s, 0, "", Message(e))
    case Ok(g) =>
      var t := Read(lines);
      var c := Read(lines[t.used..]);
      assert c.text == LineOr(lines, 1);
      match AddGomem(s.gs, g.(title := t.text, content := c.text))
      case Err(e) => Done(s, t.used + c.used, "", Message(e))
      case Ok(gs) => Done(s.(gs := gs), t.used + c.used, "", ok)
  }

  /** The path is accepted and its base is not yet a key of the cache. */
  predicate Fresh(s: Session, fpath: string) {
    HasSuffix(fpath, JsonExt) && s.gs.gmap.Some? && Base(fpath) !in s.gs.gmap.value
  }

  /** `newGomem`: prompt for a path, a title and a content, and add the
      document; the result says what happened and the error is always nil. */
  function NewGomem(s: Session, lines: seq<string>): (r: Done)
    ensures r.echo == "" && r.s.disk == s.disk && r.used <= |lines| && r.used <= 3
    ensures !HasSuffix(LineOr(lines, 0), JsonExt) ==>
              r == Done(s, if |lines| == 0 then 0 else 1, "", Message(NotJsonPath(LineOr(lines, 0))))
    ensures HasSuffix(LineOr(lines, 0), JsonExt) ==> r.used == if |lines| < 3 then |lines| else 3
    ensures !Fresh(s, LineOr(lines, 0)) ==> r.s == s
    ensures Fresh(s, LineOr(lines, 0)) ==>
              var fpath := LineOr(lines, 0);
              && r.result == "new gomem key:" + fpath
              && r.s.gs.dir == s.gs.dir && r.s.gs.gmap.Some?
              && r.s.gs.gmap.value == s.gs.gmap.value[Base(fpath) := Gomem(LineOr(lines, 1), LineOr(lines, 2), Base(fpath), true)]
  {
    var f := Read(lines);
    var rest := lines[f.used..];
    assert LineOr(rest, 0) == LineOr(lines, 1) && LineOr(rest, 1) == LineOr(lines, 2);
    var d := AddNamed(s, f.text, rest, "new gomem key:" + f.text);
    d.(used := d.used + f.used)
  }

  /** `newGomemWithName`: as `newGomem`, with the path given. */
  function NewGomemWithName(s: Session, name: string, lines: seq<string>): (r: Done)
    ensures r.echo == "" && r.s.disk == s.disk && r.used <= |lines| && r.used <= 2
    ensures !HasSuffix(name, JsonExt) ==> r == Done(s, 0, "", Message(NotJsonPath(name)))
    ensures HasSuffix(name, JsonExt) ==> r.used == if |lines| < 2 then |lines| else 2
    ensures HasSuffix(name, JsonExt) && s.gs.gmap.None? ==> r.s == s && r.result == Message(AddNilMap)
    ensures HasSuffix(name, JsonExt) && Base(name) in Entries(s.gs) && s.gs.gmap.Some? ==>
              r.s == s && r.result == Message(Duplicate(Base(name)))
    ensures !Fresh(s, name) ==> r.s == s
    ensures Fresh(s, name) ==>
              && r.result == "new gomem included"
              && r.s.gs.dir == s.gs.dir && r.s.gs.gmap.Some?
              && r.s.gs.gmap.value == s.gs.gmap.value[Base(name) := Gomem(LineOr(lines, 0), LineOr(lines, 1), Base(name), true)]
  {
    AddNamed(s, name, lines, "new gomem included")
  }

  /** A document just added by name is what `show` then prints. */
  lemma NewThenShow(s: Session, name: string, lines: seq<string>)
    requires Fresh(s, name) && name != "" && '/' !in name
    ensures Show(NewGomemWithName(s, name, lines).s, name) == "[ " + LineOr(lines, 0) + " ]\n" + LineOr(lines, 1) + "\n"
  {
    BaseOfPlainName(name);
  }

  /** A new document is refused when its file name is already a key, and
      then the cache keeps the old document. */
  lemma NewKeepsExisting(s: Session, name: string, lines: seq<string>)
    requires HasSuffix(name, JsonExt) && name != "" && '/' !in name && name in Entries(s.gs)
    ensures NewGomemWithName(s, name, lines).s == s
    ensures Show(NewGomemWithName(s, name, lines).s, name) == Shown(Entries(s.gs)[name])
  {
    BaseOfPlainName(name);
  }

  // ---------------------------------------------------------------- ls

  /** `ls`: one line per key of the cache, in the order `order` visits the
      map (Go's map order is unspecified, so this holds for every order). */
  function Ls(s: Session, order: seq<string>): (r: string)
    requires Enumerates(order, Entries(s.gs).Keys)
    ensures (forall k :: k in Entries(s.gs) ==> '\n' !in k) ==>
              Enumerates(SplitLines(r), Entries(s.gs).Keys)
  {
    SplitLinesOfLines(order);
    Lines(order)
  }

  // ---------------------------------------------------------- writeAll

  /** A document that could not be saved, under its key. */
  datatype Unsaved = Unsaved(key: string, err: Error)

  /** The disk after a sequence of saves, and the saves that failed. */
  datatype Saved = Saved(disk: Disk, failures: seq<Unsaved>)

  /** The loop of `writeAll`: save every document in `order`, never
      stopping at an error. */
  function WriteEach(m: map<string, Gomem>, order: seq<string>, d: Disk): (r: Saved)
    requires forall k :: k in order ==> k in m
    ensures r.disk.cwd == d.cwd && r.disk.dirs.Keys == d.dirs.Keys
    ensures forall i :: 0 <= i < |r.failures| ==> r.failures[i].key in order
    decreases |order|
  {
    if order == [] then Saved(d, [])
    else
      var w := WriteFile(m[order[0]], d);
      var rest := WriteEach(m, order[1..], w.disk);
      if w.err.Some? then Saved(rest.disk, [Unsaved(order[0], w.err.value)] + rest.failures)
      else rest
  }

  /** The reference: the documents whose save would fail on the disk as it
      was before any of them was written, in `order`. */
  function FailuresAlone(m: map<string, Gomem>, order: seq<string>, d: Disk): (r: seq<Unsaved>)
    requires forall k :: k in order ==> k in m
    ensures forall k, e :: Unsaved(k, e) in r <==> k in order && WriteFile(m[k], d).err == Some(e)
    decreases |order|
  {
    if order == [] then []
    else
      var w := WriteFile(m[order[0]], d);
      (if w.err.Some? then [Unsaved(order[0], w.err.value)] else []) + FailuresAlone(m, order[1..], d)
  }

  /** What `writeAll` reports: `fmt.Sprintln(key, err.Error())` per
      failure. */
  function Report(fs: seq<Unsaved>): (r: string)
    ensures r == "" <==> fs == []
    ensures Unbroken(fs) ==> SplitLines(r) == ReportLines(fs)
    decreases |fs|
  {
    if fs == [] then ""
    else
      var tail := Report(fs[1..]);
      var r := ReportLine(fs[0]) + "\n" + tail;
      assert Unbroken(fs) ==> SplitLines(r) == ReportLines(fs) by {
        if Unbroken(fs) {
          assert Unbroken(fs[1..]) by {
            forall i | 0 <= i < |fs| - 1
              ensures '\n' !in ReportLine(fs[1..][i])
            {
              assert fs[1..][i] == fs[i + 1];
            }
          }
          SplitLinesCons(ReportLine(fs[0]), tail);
          ReportLinesCons(fs);
        }
      }
      r
  }

  /** No line of the report contains a line break of its own. */
  predicate Unbroken(fs: seq<Unsaved>) {
    forall i :: 0 <= i < |fs| ==> '\n' !in ReportLine(fs[i])
  }

  /** The report's lines, one per failure, in order. */
  function ReportLines(fs: seq<Unsaved>): (r: seq<string>)
    ensures |r| == |fs|
    ensures forall i :: 0 <= i < |fs| ==> r[i] == ReportLine(fs[i])
  {
    seq(|fs|, i requires 0 <= i < |fs| => ReportLine(fs[i]))
  }

  lemma ReportLinesCons(fs: seq<Unsaved>)
    requires fs != []
    ensures ReportLines(fs) == [ReportLine(fs[0])] + ReportLines(fs[1..])
  {
    var a := ReportLines(fs);
    var b := [ReportLine(fs[0])] + ReportLines(fs[1..]);
    assert |a| == |b|;
    forall i | 0 <= i < |a|
      ensures a[i] == b[i]
    {
      if i > 0 {
        assert fs[1..][i - 1] == fs[i];
      }
    }
  }

  /** One line of the report: the key, a space and the error text. */
  function ReportLine(f: Unsaved): string {
    f.key + " " + Message(f.err)
  }

  /** Whether a save fails depends only on the entry of its own name and on
      the working directory existing. */
  lemma WriteFileErrLocal(g: Gomem, d: Disk, d': Disk)
    requires Lookup(d', g.base) == Lookup(d, g.base)
    requires d'.cwd == d.cwd && d'.dirs.Keys == d.dirs.Keys
    ensures WriteFile(g, d').err == WriteFile(g, d).err
  {
  }

  lemma {:induction false} FailuresAloneLocal(m: map<string, Gomem>, order: seq<string>, d: Disk, d': Disk)
    requires forall k :: k in order ==> k in m && WriteFile(m[k], d').err == WriteFile(m[k], d).err
    ensures FailuresAlone(m, order, d') == FailuresAlone(m, order, d)
    decreases |order|
  {
    if order != [] {
      FailuresAloneLocal(m, order[1..], d, d');
    }
  }

  /** With every document filed under its own name, the saves touch
      different files, so each one fails or succeeds as it would alone:
      the order of the map does not matter. */
  lemma {:induction false} WriteEachAlone(m: map<string, Gomem>, order: seq<string>, d: Disk)
    requires forall k :: k in order ==> k in m
    requires Distinct(order) && KeysMatchBase(m)
    ensures WriteEach(m, order, d).failures == FailuresAlone(m, order, d)
    ensures forall k :: k in order && WriteFile(m[k], d).err.None? ==>
              Lookup(WriteEach(m, order, d).disk, k) == Some(Regular(Encode(m[k])))
    ensures forall n :: (n !in order || WriteFile(m[n], d).err.Some?) ==>
              Lookup(WriteEach(m, order, d).disk, n) == Lookup(d, n)
    decreases |order|
  {
    if order != [] {
      var k0 := order[0];
      var tail := order[1..];
      var w := WriteFile(m[k0], d);
      assert m[k0].base == k0;
      assert forall n :: n != k0 ==> Lookup(w.disk, n) == Lookup(d, n);
      assert k0 !in tail by {
        forall j | 0 <= j < |tail| ensures tail[j] != k0 {
          assert tail[j] == order[j + 1];
        }
      }
      assert Distinct(tail) by {
        forall i, j | 0 <= i < j < |tail| ensures tail[i] != tail[j] {
          assert tail[i] == order[i + 1] && tail[j] == order[j + 1];
        }
      }
      forall k | k in tail
        ensures WriteFile(m[k], w.disk).err == WriteFile(m[k], d).err
      {
        WriteFileErrLocal(m[k], d, w.disk);
      }
      FailuresAloneLocal(m, tail, d, w.disk);
      WriteEachAlone(m, tail, w.disk);
    }
  }

  function WriteAllMessage(s: Session): string {
    "write mems into " + GetDir(s.gs)
  }

  /** `writeAll`: ask first; when confirmed, save every document and report
      the ones that failed. The cache itself is never changed. */
  function WriteAll(s: Session, order: seq<string>, lines: seq<string>): (r: Done)
    requires Enumerates(order, Entries(s.gs).Keys)
    ensures r.used == Confirm(WriteAllMessage(s), lines).used && r.used <= |lines|
    ensures r.echo == Confirm(WriteAllMessage(s), lines).echo
    ensures r.s.gs == s.gs
    ensures !Confirm(WriteAllMessage(s), lines).yes ==> r.s == s && r.result == ""
    ensures r.s.disk.cwd == s.disk.cwd && r.s.disk.dirs.Keys == s.disk.dirs.Keys
  {
    var a := Confirm(WriteAllMessage(s), lines);
    if !a.yes then Done(s, a.used, a.echo, "")
    else
      var w := WriteEach(Entries(s.gs), order, s.disk);
      Done(s.(disk := w.disk), a.used, a.echo, Report(w.failures))
  }

  /** A confirmed `writeAll` over a cache whose documents are filed under
      their own names reports exactly the documents whose save fails on the
      disk as it was, stores every other one, and leaves every file that is
      not a saved document alone. */
  lemma WriteAllReportsFailures(s: Session, order: seq<string>, lines: seq<string>)
    requires Enumerates(order, Entries(s.gs).Keys) && KeysMatchBase(Entries(s.gs))
    requires Confirm(WriteAllMessage(s), lines).yes
    ensures var r := WriteAll(s, order, lines);
            var m := Entries(s.gs);
            && r.result == Report(FailuresAlone(m, order, s.disk))
            && (forall k :: k in m && WriteFile(m[k], s.disk).err.None? ==>
                  Lookup(r.s.disk, k) == Some(Regular(Encode(m[k]))))
            && (forall n :: (n !in m || WriteFile(m[n], s.disk).err.Some?) ==>
                  Lookup(r.s.disk, n) == Lookup(s.disk, n))
  {
    WriteEachAlone(Entries(s.gs), order, s.disk);
  }

  // ------------------------------------------------- the session invariant

  /** Adding a document keeps every document filed under its own file
      name; `remove` only drops keys and `writeAll` leaves the cache alone,
      so the session commands all keep it. */
  lemma NewKeepsKeysMatchBase(s: Session, lines: seq<string>)
    requires KeysMatchBase(Entries(s.gs))
    ensures KeysMatchBase(Entries(NewGomem(s, lines).s.gs))
  {
    var fpath := LineOr(lines, 0);
    if Fresh(s, fpath) {
      FiledUnderBase(s.gs.gmap.value, Gomem(LineOr(lines, 1), LineOr(lines, 2), Base(fpath), true));
    }
  }

  lemma NewWithNameKeepsKeysMatchBase(s: Session, name: string, lines: seq<string>)
    requires KeysMatchBase(Entries(s.gs))
    ensures KeysMatchBase(Entries(NewGomemWithName(s, name, lines).s.gs))
  {
    if Fresh(s, name) {
      FiledUnderBase(s.gs.gmap.value, Gomem(LineOr(lines, 0), LineOr(lines, 1), Base(name), true));
    }
  }

  lemma FiledUnderBase(m: map<string, Gomem>, g: Gomem)
    requires KeysMatchBase(m)
    ensures KeysMatchBase(m[g.base := g])
  {
  }

  lemma RemoveKeepsKeysMatchBase(s: Session, ops: Ops, name: string)
    requires KeysMatchBase(Entries(s.gs))
    ensures KeysMatchBase(Entries(Remove(s, ops, name).s.gs))
  {
  }

  // ------------------------------------------------------- the registry

  /** A handler result as `Repl` sees it: these handlers never return an
      error. */
  function Answered(d: Done): (r: Reply<Session>)
    ensures r.status == Success && r.state == d.s && r.used == d.used && r.result == d.result
  {
    Reply(d.s, d.used, d.echo, d.result, Success)
  }

  /** The order the model gives Go's map iteration in `ls` and `writeAll`. */
  function KeyOrder(s: Session): (r: seq<string>)
    ensures Enumerates(r, Entries(s.gs).Keys)
  {
    SortedNames(Entries(s.gs).Keys)
  }

  function LsHandler<V>(v: Option<V>, s: Session, rest: seq<string>): Reply<Session> {
    Answered(Done(s, 0, "", Ls(s, KeyOrder(s))))
  }

  function NewHandler<V>(v: Option<V>, s: Session, rest: seq<string>): Reply<Session> {
    Answered(NewGomem(s, rest))
  }

  function WriteHandler<V>(v: Option<V>, s: Session, rest: seq<string>): Reply<Session> {
    Answered(WriteAll(s, KeyOrder(s), rest))
  }

  /** The commands of the interactive session that take no argument, on top
      of `exit` and `help`; ":q" is a second name for `exit`. */
  function Interactive<V>(): (r: SubCommands<Session, V>)
    ensures r.Keys == {"exit", "help", "ls", "new", "write", ":q"}
    ensures r["exit"].f == ExitCmd && r[":q"].f == ExitCmd && r["help"].f == HelpCmd
    ensures r["ls"] == SubCmd(Func(LsHandler<V>), None, "ls Gmap keys")
    ensures r["new"] == SubCmd(Func(NewHandler<V>), None, "new gomem")
    ensures r["write"] == SubCmd(Func(WriteHandler<V>), None, "write all data to gs.dir")
  {
    SubNewWithBase<Session, V>()
      ["ls" := SubCmd(Func(LsHandler<V>), None, "ls Gmap keys")]
      ["new" := SubCmd(Func(NewHandler<V>), None, "new gomem")]
      ["write" := SubCmd(Func(WriteHandler<V>), None, "write all data to gs.dir")]
      [":q" := SubCmd(ExitCmd, None, "exit alias")]
  }

  /** The registry is the one the four `Addf` calls build. */
  lemma InteractiveByAddf<V>()
    ensures Interactive<V>()
            == Addf(Addf(Addf(Addf(SubNewWithBase<Session, V>(),
                                   "ls", None, Func(LsHandler<V>), "ls Gmap keys"),
                              "new", None, Func(NewHandler<V>), "new gomem"),
                         "write", None, Func(WriteHandler<V>), "write all data to gs.dir"),
                    ":q", None, ExitCmd, "exit alias")
  {
  }

  /** In the interactive session a line ends the loop exactly when it names
      `exit` or ":q", and then it ends cleanly: the handlers never fail. */
  lemma InteractiveStops<V>(s: Session, line: string, rest: seq<string>)
    ensures var t := Eval(Interactive<V>(), s, line, rest);
            && (t.stop.Some? <==> TrimSpace(line) == "exit" || TrimSpace(line) == ":q")
            && (t.stop.Some? ==> t.stop == Some(Clean))
  {
    var key := TrimSpace(line);
    if key == "exit" || key == ":q" {
      InteractiveExits<V>(s, line, rest);
    } else {
      InteractiveGoesOn<V>(s, line, rest);
    }
  }

  /** Every other line, registered or not, leaves the loop running. */
  lemma InteractiveGoesOn<V>(s: Session, line: string, rest: seq<string>)
    requires TrimSpace(line) != "exit" && TrimSpace(line) != ":q"
    ensures Eval(Interactive<V>(), s, line, rest).stop.None?
  {
    var key := TrimSpace(line);
    if key == "help" {
      InteractiveHelp<V>(s, line, rest);
    } else if key in {"ls", "new", "write"} {
      InteractiveAnswers<V>(s, line, rest);
    } else {
      InteractiveUnknown<V>(s, line, rest);
    }
  }

  lemma InteractiveHelp<V>(s: Session, line: string, rest: seq<string>)
    requires TrimSpace(line) == "help"
    ensures Eval(Interactive<V>(), s, line, rest).stop.None?
  {
    EvalHelp(Interactive<V>(), s, line, rest);
  }

  lemma InteractiveUnknown<V>(s: Session, line: string, rest: seq<string>)
    requires TrimSpace(line) !in {"exit", "help", "ls", "new", "write", ":q"}
    ensures Eval(Interactive<V>(), s, line, rest).stop.None?
  {
    Unregistered<V>(TrimSpace(line));
    EvalUnknown(Interactive<V>(), s, line, rest);
  }

  lemma Unregistered<V>(key: string)
    requires key !in {"exit", "help", "ls", "new", "write", ":q"}
    ensures key !in Interactive<V>()
  {
  }

  lemma InteractiveExits<V>(s: Session, line: string, rest: seq<string>)
    requires TrimSpace(line) == "exit" || TrimSpace(line) == ":q"
    ensures Eval(Interactive<V>(), s, line, rest).stop == Some(Clean)
  {
    EvalExit(Interactive<V>(), s, line, rest);
  }

  /** `ls`, `new` and `write` always answer, so the loop goes on. */
  lemma InteractiveAnswers<V>(s: Session, line: string, rest: seq<string>)
    requires TrimSpace(line) in {"ls", "new", "write"}
    ensures Eval(Interactive<V>(), s, line, rest).stop.None?
  {
    var sub := Interactive<V>();
    var key := TrimSpace(line);
    var h := sub[key].f.f;
    HandlersAnswer<V>(s, rest);
    EvalSuccess(sub, s, line, rest, h);
  }

  lemma HandlersAnswer<V>(s: Session, rest: seq<string>)
    ensures LsHandler<V>(None, s, rest).status == Success && LsHandler<V>(None, s, rest).used <= |rest|
    ensures NewHandler<V>(None, s, rest).status == Success && NewHandler<V>(None, s, rest).used <= |rest|
    ensures WriteHandler<V>(None, s, rest).status == Success && WriteHandler<V>(None, s, rest).used <= |rest|
  {
  }

  /** The `new` command reads its path, title and content from the lines
      after it, and the loop carries on after those with the document
      added. */
  lemma ReplNewDocument<V>(s: Session, fpath: string, title: string, content: string,
                           rest: seq<string>, prefix: string)
    requires Fresh(s, fpath)
    ensures var s' := s.(gs := s.gs.(gmap := Some(s.gs.gmap.value[Base(fpath) := Gomem(title, content, Base(fpath), true)])));
            var run := Repl(Interactive<V>(), s, ["new", fpath, title, content] + rest, prefix);
            var tail := Repl(Interactive<V>(), s', rest, prefix);
            && run.trace == [Prefix(prefix)] + [Echo(""), Printed("new gomem key:" + fpath)] + tail.trace
            && run.outcome == tail.outcome && run.state == tail.state
  {
    var lines := ["new", fpath, title, content] + rest;
    var input := lines[1..];
    assert lines[0] == "new" && input == [fpath, title, content] + rest && input[3..] == rest;
    var s' := s.(gs := s.gs.(gmap := Some(s.gs.gmap.value[Base(fpath) := Gomem(title, content, Base(fpath), true)])));
    NewFresh(s, fpath, title, content, rest);
    NewKey();
    EvalNew<V>(s, "new", input);
    ReplContinuesLines(Interactive<V>(), s, lines, prefix, s', [Echo(""), Printed("new gomem key:" + fpath)], rest);
  }

  lemma NewKey()
    ensures TrimSpace("new") == "new"
  {
    Trimmed("new");
  }

  /** `newGomem` on a fresh path followed by a title and a content line. */
  lemma NewFresh(s: Session, fpath: string, title: string, content: string, rest: seq<string>)
    requires Fresh(s, fpath)
    ensures var s' := s.(gs := s.gs.(gmap := Some(s.gs.gmap.value[Base(fpath) := Gomem(title, content, Base(fpath), true)])));
            NewGomem(s, [fpath, title, content] + rest) == Done(s', 3, "", "new gomem key:" + fpath)
  {
    var input := [fpath, title, content] + rest;
    assert LineOr(input, 0) == fpath && LineOr(input, 1) == title && LineOr(input, 2) == content;
  }

  /** The `new` line runs `newGomem` on the lines after it. */
  lemma EvalNew<V>(s: Session, line: string, input: seq<string>)
    requires TrimSpace(line) == "new"
    ensures var d := NewGomem(s, input);
            Eval(Interactive<V>(), s, line, input) == Turn(d.s, [Echo(""), Printed(d.result)], None, input[d.used..])
  {
    var sub := Interactive<V>();
    assert "new" in sub && sub["new"].f == Func(NewHandler<V>);
    EvalSuccess(sub, s, line, input, NewHandler<V>);
  }

  // ------------------------------------------------------------ a session

  /** In an empty working directory: the cache starts empty; a document
      "a.json" added with title "T" and content "x", then saved with a
      confirmed `write`, is found by the next rescan under its name, with
      that title and content. */
  lemma NewWriteRescan(d: Disk)
    requires d.cwd in d.dirs && d.dirs[d.cwd] == map[]
    ensures GomemsNew(d).Ok? && Entries(GomemsNew(d).value) == map[]
    ensures var s0 := Session(GomemsNew(d).value, d);
            var s1 := NewGomemWithName(s0, "a.json", ["T", "x"]).s;
            var s2 := WriteAll(s1, KeyOrder(s1), ["yes"]).s;
            var st := IncludeJSON(s2.gs, s2.disk);
            && st.err.None? && "a.json" in Entries(st.gs)
            && Entries(st.gs)["a.json"] == Gomem("T", "x", "a.json", true)
  {
    GomemsNewEmpty(d);
    var g := Gomem("T", "x", "a.json", true);
    var s0 := Session(Gomems(Some(map[]), d.cwd), d);
    AddFirst(s0, g);
    var s1 := Session(Gomems(Some(map[g.base := g]), d.cwd), d);
    SaveOnly(s1, g);
    var w := WriteFile(g, d);
    SavedAlone(g, d);
    RescanAfterSave(s1.gs, w.disk, g);
  }

  /** A scan of an empty working directory gives an empty cache. */
  lemma GomemsNewEmpty(d: Disk)
    requires d.cwd in d.dirs && d.dirs[d.cwd] == map[]
    ensures GomemsNew(d) == Ok(Gomems(Some(map[]), d.cwd))
  {
    assert GetBaseJSON(d, d.cwd).value == [];
  }

  /** "a.json" added by name to an empty cache. */
  lemma AddFirst(s0: Session, g: Gomem)
    requires s0.gs == Gomems(Some(map[]), s0.disk.cwd)
    requires g == Gomem("T", "x", "a.json", true)
    ensures NewGomemWithName(s0, "a.json", ["T", "x"]).s == Session(Gomems(Some(map[g.base := g]), s0.disk.cwd), s0.disk)
  {
    assert HasSuffix("a.json", JsonExt);
    BaseOfPlainName("a.json");
    assert Fresh(s0, "a.json");
  }

  /** With one document cached, a confirmed `write` leaves the disk as
      saving that document alone does. */
  lemma SaveOnly(s: Session, g: Gomem)
    requires s.gs.gmap == Some(map[g.base := g])
    ensures WriteAll(s, KeyOrder(s), ["yes"]).s == Session(s.gs, WriteFile(g, s.disk).disk)
  {
    var order := KeyOrder(s);
    assert |order| == 1 && order[0] in order;
    assert order == [g.base];
    assert Confirm(WriteAllMessage(s), ["yes"]).yes;
    var m := Entries(s.gs);
    assert WriteEach(m, [g.base], s.disk).disk == WriteFile(g, s.disk).disk by {
      assert [g.base][1..] == [];
    }
  }

  /** Saving a document with override on into an empty working directory
      leaves exactly its encoded form there. */
  lemma SavedAlone(g: Gomem, d: Disk)
    requires d.cwd in d.dirs && d.dirs[d.cwd] == map[]
    requires HasSuffix(g.base, JsonExt) && g.override
    ensures var w := WriteFile(g, d).disk;
            w.cwd == d.cwd && d.cwd in w.dirs && w.dirs[d.cwd] == map[g.base := Regular(Encode(g))]
  {
  }

  /** A rescan of a directory holding only the saved form of the one
      cached document changes nothing. */
  lemma RescanAfterSave(gs: Gomems, d: Disk, g: Gomem)
    requires HasSuffix(g.base, JsonExt)
    requires gs == Gomems(Some(map[g.base := g]), d.cwd)
    requires d.cwd in d.dirs && d.dirs[d.cwd] == map[g.base := Regular(Encode(g))]
    ensures IncludeJSON(gs, d) == Step(gs, None)
  {
    var bases := GetBaseJSON(d, d.cwd).value;
    assert g.base in bases;
    assert bases == [g.base];
    IncludeFixed(map[g.base := g], bases, d);
  }
}

=== FILE: errs.dfy ===
/** The errors the document cache reports, and the text `err.Error()` gives
    for each; the command handlers show that text to the user. */
module Errs {

  datatype Error =
    | NotJsonPath(path: string)          // New: the path lacks ".json"
    | NotJsonBase(base: string)          // IsValidFilePath: the base lacks ".json"
    | NotRegular(base: string)           // IsValidFilePath: the name exists but is not a regular file
    | FileExists                         // WriteFile: overwrite refused
    | NoEntry(op: string, path: string)  // an *os.PathError for ENOENT
    | IsDirectory(op: string, path: string) // an *os.PathError for EISDIR
    | NoCwd                              // os.Getwd: the working directory is gone
    | Syntax(reason: string)             // the file is not well-formed JSON
    | Mistyped(kind: string, field: string) // a known field holds a non-string JSON value
    | AddNilMap                          // AddGomem on a nil map
    | IncludeNilMap                      // IncludeJSON on a nil map
    | Duplicate(key: string)             // AddGomem on a key already present

  function Message(e: Error): string {
    match e
    case NotJsonPath(p) => "invalid filename:" + p + " require filename is *.json"
    case NotJsonBase(b) => "*Gomem.IsValidFilePath:" + b + ": require file name *.json"
    case NotRegular(b) => "*Gomem.IsValidFilePath: invalid filename:" + b
    case FileExists => "file exists, cannot override"
    case NoEntry(op, p) => op + " " + p + ": no such file or directory"
    case IsDirectory(op, p) => op + " " + p + ": is a directory"
    case NoCwd => "getwd: no such file or directory"
    case Syntax(reason) => reason
    case Mistyped(kind, field) =>
      "json: cannot unmarshal " + kind + " into Go struct field Gomem." + field + " of type string"
    case AddNilMap => "*Gomems.AddGomem: gs.Gmap == nil"
    case IncludeNilMap => "*Gomems.IncludeJSON: Gmap is nil"
    case Duplicate(k) => "*Gomems.AddGomem: gs.Gmap[" + k + "] is exists"
  }
}

=== FILE: interp.dfy ===
/** The command interpreter of subcmd.go: a registry from command name to
    handler, value and help text, and `Repl`, the read-eval-print loop over
    the lines of the input.

    A handler sees the value it was registered with, the session state `S`
    and the input lines not yet read, and answers with the new state, how
    many of those lines it read itself (handlers prompt on the same reader),
    what it wrote to the output while running, its result string and its
    error. `Exit` and `Help` are handler kinds of their own: Go's `sub.Help`
    is a method value closed over the registry map, and reading the registry
    at dispatch time is what lets it list commands added later. */
module Interp {
  import opened Maybe
  import opened Strs
  import opened Listing

  /** The error a handler returns: nil, `ErrValidExit`, or any other. */
  datatype Status = Success | ValidExit | Failure(msg: string)

  datatype Reply<S> = Reply(state: S, used: nat, echo: string, result: string, status: Status)

  datatype Handler<!S, !V> =
    | ExitCmd
    | HelpCmd
    | Func(f: (Option<V>, S, seq<string>) -> Reply<S>)

  /** A registry entry; `value` is `None` for Go's nil. */
  datatype SubCmd<!S, !V> = SubCmd(f: Handler<S, V>, value: Option<V>, helpmsg: string)

  type SubCommands<!S, !V> = map<string, SubCmd<S, V>>

  /** `Addf`: register or replace a command. */
  function Addf<S, V>(sub: SubCommands<S, V>, key: string, v: Option<V>, f: Handler<S, V>, help: string)
    : (r: SubCommands<S, V>)
    ensures r.Keys == sub.Keys + {key}
    ensures r[key] == SubCmd(f, v, help)
    ensures forall k :: k in sub && k != key ==> r[k] == sub[k]
  {
    sub[key := SubCmd(f, v, help)]
  }

  /** Registering a name twice keeps only the second registration. */
  lemma AddfLastWins<S, V>(sub: SubCommands<S, V>, key: string,
                           v1: Option<V>, f1: Handler<S, V>, h1: string,
                           v2: Option<V>, f2: Handler<S, V>, h2: string)
    ensures Addf(Addf(sub, key, v1, f1, h1), key, v2, f2, h2) == Addf(sub, key, v2, f2, h2)
  {
  }

  /** `SubNewWithBase`: a registry holding just `exit` and `help`. */
  function SubNewWithBase<S, V>(): (r: SubCommands<S, V>)
    ensures r.Keys == {"exit", "help"}
    ensures r["exit"] == SubCmd(ExitCmd, None, "call exit")
    ensures r["help"] == SubCmd(HelpCmd, None, "show subcommands")
  {
    var sub := Addf(map[], "exit", None, ExitCmd, "call exit");
    Addf(sub, "help", None, HelpCmd, "show subcommands")
  }

  /** `Exit`: the empty result with the exit signal. */
  function Exit<S>(s: S): (r: Reply<S>)
    ensures r.status == ValidExit && r.result == "" && r.echo == "" && r.used == 0 && r.state == s
  {
    Reply(s, 0, "", "", ValidExit)
  }

  const HelpHeader: string := "list commands:\n"

  /** The lines `Help` writes for one command. */
  function HelpBlock(key: string, help: string): string {
    "\t" + key + "\n" + "\t\t" + help + "\n"
  }

  function HelpBlocks<S, V>(sub: SubCommands<S, V>, order: seq<string>): (r: seq<string>)
    requires forall k :: k in order ==> k in sub
    ensures |r| == |order|
    ensures forall i :: 0 <= i < |order| ==> r[i] == HelpBlock(order[i], sub[order[i]].helpmsg)
  {
    if order == [] then [] else [HelpBlock(order[0], sub[order[0]].helpmsg)] + HelpBlocks(sub, order[1..])
  }

  function Concat(xs: seq<string>): string {
    if xs == [] then "" else xs[0] + Concat(xs[1..])
  }

  /** `b` occurs in `r` starting at position `i`. */
  predicate InfixAt(b: string, r: string, i: int) {
    0 <= i <= |r| - |b| && r[i..i + |b|] == b
  }

  ghost predicate Infix(b: string, r: string) {
    exists i :: InfixAt(b, r, i)
  }

  lemma InfixShift(b: string, pre: string, r: string, i: int)
    requires InfixAt(b, r, i)
    ensures InfixAt(b, pre + r, |pre| + i)
  {
    assert (pre + r)[|pre| + i..|pre| + i + |b|] == r[i..i + |b|];
  }

  lemma {:induction false} ConcatHasEach(xs: seq<string>, j: nat)
    requires j < |xs|
    ensures Infix(xs[j], Concat(xs))
    decreases |xs|
  {
    var c := Concat(xs);
    assert c == xs[0] + Concat(xs[1..]);
    if j == 0 {
      assert InfixAt(xs[0], c, 0);
    } else {
      assert xs[1..][j - 1] == xs[j];
      ConcatHasEach(xs[1..], j - 1);
      var i :| InfixAt(xs[j], Concat(xs[1..]), i);
      InfixShift(xs[j], xs[0], Concat(xs[1..]), i);
    }
  }

  lemma HelpHasEveryBlock<S, V>(sub: SubCommands<S, V>, order: seq<string>)
    requires Enumerates(order, sub.Keys)
    ensures forall k :: k in sub ==> Infix(HelpBlock(k, sub[k].helpmsg), HelpHeader + Concat(HelpBlocks(sub, order)))
  {
    var blocks := HelpBlocks(sub, order);
    forall k | k in sub
      ensures Infix(HelpBlock(k, sub[k].helpmsg), HelpHeader + Concat(blocks))
    {
      var j :| 0 <= j < |order| && order[j] == k;
      ConcatHasEach(blocks, j);
      var i :| InfixAt(blocks[j], Concat(blocks), i);
      InfixShift(blocks[j], HelpHeader, Concat(blocks), i);
    }
  }

  /** `Help`: the header, then one block per registered command, in the
      order `order` enumerates the registry (Go's map order is unspecified,
      so this holds for every order). */
  function Help<S, V>(sub: SubCommands<S, V>, order: seq<string>): (r: string)
    requires Enumerates(order, sub.Keys)
    ensures |HelpHeader| <= |r| && r[..|HelpHeader|] == HelpHeader
    ensures forall k :: k in sub ==> Infix(HelpBlock(k, sub[k].helpmsg), r)
  {
    HelpHasEveryBlock(sub, order);
    HelpHeader + Concat(HelpBlocks(sub, order))
  }

  /** The lines of the listing after its header: for each command in
      `order`, its name and then its help text, both indented. */
  function HelpLines<S, V>(sub: SubCommands<S, V>, order: seq<string>): (r: seq<string>)
    requires forall k :: k in order ==> k in sub
    ensures |r| == 2 * |order|
    ensures forall j :: 0 <= j < |order| ==>
              r[2 * j] == "\t" + order[j] && r[2 * j + 1] == "\t\t" + sub[order[j]].helpmsg
  {
    if order == [] then []
    else
      var tail := HelpLines(sub, order[1..]);
      var r := ["\t" + order[0], "\t\t" + sub[order[0]].helpmsg] + tail;
      assert forall j :: 0 <= j < |order| ==>
               r[2 * j] == "\t" + order[j] && r[2 * j + 1] == "\t\t" + sub[order[j]].helpmsg by {
        forall j | 1 <= j < |order|
          ensures r[2 * j] == "\t" + order[j] && r[2 * j + 1] == "\t\t" + sub[order[j]].helpmsg
        {
          var i := j - 1;
          assert r[2 * j] == tail[2 * i] && r[2 * j + 1] == tail[2 * i + 1];
          assert order[1..][i] == order[j];
        }
      }
      r
  }

  /** Each block of the listing is its two lines. */
  lemma {:induction false} HelpBlocksAsLines<S, V>(sub: SubCommands<S, V>, order: seq<string>)
    requires forall k :: k in order ==> k in sub
    ensures Concat(HelpBlocks(sub, order)) == Lines(HelpLines(sub, order))
    decreases |order|
  {
    if order != [] {
      var k := order[0];
      var pair := ["\t" + k, "\t\t" + sub[k].helpmsg];
      HelpBlocksAsLines(sub, order[1..]);
      LinesAppend(pair, HelpLines(sub, order[1..]));
      BlockLines(k, sub[k].helpmsg);
      assert HelpLines(sub, order) == pair + HelpLines(sub, order[1..]);
    }
  }

  lemma BlockLines(k: string, h: string)
    ensures Lines(["\t" + k, "\t\t" + h]) == HelpBlock(k, h)
  {
    var a, b := "\t" + k, "\t\t" + h;
    var pair := [a, b];
    assert pair[1..] == [b] && [b][1..] == [];
    assert Lines([b]) == b + "\n" + Lines([]);
    assert Lines(pair) == a + "\n" + Lines([b]);
    assert Lines(pair) == a + "\n" + (b + "\n");
  }

  /** The listing is exactly the header line and then, for each registered
      command once, its name line and its help line, and nothing else
      (provided no name or help text spans lines). */
  lemma HelpLinesExact<S, V>(sub: SubCommands<S, V>, order: seq<string>)
    requires Enumerates(order, sub.Keys)
    requires forall k :: k in sub ==> '\n' !in k && '\n' !in sub[k].helpmsg
    ensures var ls := SplitLines(Help(sub, order));
            && |ls| == 1 + 2 * |order| && ls[0] == "list commands:"
            && forall j :: 0 <= j < |order| ==>
                 ls[1 + 2 * j] == "\t" + order[j] && ls[2 + 2 * j] == "\t\t" + sub[order[j]].helpmsg
  {
    var hl := HelpLines(sub, order);
    HelpAsLines(sub, order);
    HelpLinesUnbroken(sub, order);
    SplitLinesOfLines(["list commands:"] + hl);
    HelpLinesAt(sub, order);
  }

  /** The listing is the header line followed by `HelpLines`. */
  lemma HelpAsLines<S, V>(sub: SubCommands<S, V>, order: seq<string>)
    requires Enumerates(order, sub.Keys)
    ensures Help(sub, order) == Lines(["list commands:"] + HelpLines(sub, order))
  {
    var all := ["list commands:"] + HelpLines(sub, order);
    HelpBlocksAsLines(sub, order);
    assert all[1..] == HelpLines(sub, order);
  }

  lemma HelpLinesUnbroken<S, V>(sub: SubCommands<S, V>, order: seq<string>)
    requires Enumerates(order, sub.Keys)
    requires forall k :: k in sub ==> '\n' !in k && '\n' !in sub[k].helpmsg
    ensures var all := ["list commands:"] + HelpLines(sub, order);
            forall j :: 0 <= j < |all| ==> '\n' !in all[j]
  {
    var hl := HelpLines(sub, order);
    var all := ["list commands:"] + hl;
    forall j | 0 <= j < |all|
      ensures '\n' !in all[j]
    {
      if j > 0 {
        assert all[j] == hl[j - 1];
        HelpLineUnbroken(sub, order, j - 1);
      }
    }
  }

  lemma HelpLineUnbroken<S, V>(sub: SubCommands<S, V>, order: seq<string>, m: nat)
    requires forall k :: k in order ==> k in sub
    requires forall k :: k in sub ==> '\n' !in k && '\n' !in sub[k].helpmsg
    requires m < 2 * |order|
    ensures '\n' !in HelpLines(sub, order)[m]
  {
    var i := m / 2;
    var k := order[i];
    if m == 2 * i {
      assert HelpLines(sub, order)[m] == "\t" + k;
    } else {
      assert m == 2 * i + 1;
      assert HelpLines(sub, order)[m] == "\t\t" + sub[k].helpmsg;
    }
  }

  lemma HelpLinesAt<S, V>(sub: SubCommands<S, V>, order: seq<string>)
    requires forall k :: k in order ==> k in sub
    ensures var all := ["list commands:"] + HelpLines(sub, order);
            forall j :: 0 <= j < |order| ==>
              all[1 + 2 * j] == "\t" + order[j] && all[2 + 2 * j] == "\t\t" + sub[order[j]].helpmsg
  {
    var hl := HelpLines(sub, order);
    var all := ["list commands:"] + hl;
    assert forall j :: 0 <= j < |order| ==> all[1 + 2 * j] == hl[2 * j] && all[2 + 2 * j] == hl[2 * j + 1];
  }

  /** What one registry entry does when its name is typed. */
  function Call<S, V>(sub: SubCommands<S, V>, key: string, s: S, rest: seq<string>): (r: Reply<S>)
    requires key in sub
    ensures !sub[key].f.Func? ==> r.state == s && r.used == 0 && r.echo == ""
    ensures sub[key].f.ExitCmd? ==> r.status == ValidExit && r.result == ""
    ensures sub[key].f.HelpCmd? ==> r.status == Success && r.result == Help(sub, SortedNames(sub.Keys))
    ensures sub[key].f.Func? ==> r == sub[key].f.f(sub[key].value, s, rest)
  {
    match sub[key].f
    case ExitCmd => Exit(s)
    case HelpCmd => Reply(s, 0, "", Help(sub, SortedNames(sub.Keys)), Success)
    case Func(f) => f(sub[key].value, s, rest)
  }

  /** One write `Repl` makes to its output, in order. */
  datatype Write =
    | Prefix(p: string)     // the prompt, before each read
    | Invalid(line: string) // the diagnostic for a line naming no command
    | Echo(text: string)    // what a handler itself wrote while running
    | Printed(text: string) // a handler's result

  /** The text each write puts on the output stream. */
  function Render(w: Write): string {
    match w
    case Prefix(p) => p
    case Invalid(line) => "invalid subcommand: " + Quote(line) + "\n"
    case Echo(t) => t
    case Printed(t) => t
  }

  /** Everything `Repl` writes, as text. */
  function Output(ws: seq<Write>): string {
    if ws == [] then "" else Render(ws[0]) + Output(ws[1..])
  }

  /** How `Repl` ends: nil after the exit signal, the scanner error when the
      input runs out, or a handler's error. */
  datatype Outcome = Clean | ScanFailed | Failed(msg: string)

  /** One turn of the loop after the prompt and the read: the state after
      it, what it wrote, how the loop ends if it ends here, and the input
      still unread. */
  datatype Turn<S> = Turn(state: S, writes: seq<Write>, stop: Option<Outcome>, next: seq<string>)

  /** The writes of one turn: the diagnostic alone, the handler's echo
      alone (it failed), or its echo and then its printed result. */
  predicate TurnWrites(ws: seq<Write>) {
    || (|ws| == 1 && (ws[0].Invalid? || ws[0].Echo?))
    || (|ws| == 2 && ws[0].Echo? && ws[1].Printed?)
  }

  /** Dispatch one line: the whole trimmed line is the key; an unknown key
      gets the diagnostic of the untrimmed line; a handler's result is
      printed unless it failed; the exit signal and other errors end the
      loop. */
  function Eval<S, V>(sub: SubCommands<S, V>, s: S, line: string, rest: seq<string>): (t: Turn<S>)
    ensures |t.next| <= |rest|
    ensures TurnWrites(t.writes)
    ensures t.stop == Some(Clean) ==> |t.writes| == 2
    ensures t.stop.Some? && t.stop.value.Failed? ==> |t.writes| == 1
    ensures TrimSpace(line) !in sub ==> t == Turn(s, [Invalid(line)], None, rest)
  {
    var key := TrimSpace(line);
    if key !in sub then Turn(s, [Invalid(line)], None, rest)
    else
      var reply := Call(sub, key, s, rest);
      match reply.status
      case ValidExit => Turn(reply.state, [Echo(reply.echo), Printed(reply.result)], Some(Clean), rest)
      case Failure(m) => Turn(reply.state, [Echo(reply.echo)], Some(Failed(m)), rest)
      case Success =>
        var next := if reply.used <= |rest| then rest[reply.used..] else [];
        Turn(reply.state, [Echo(reply.echo), Printed(reply.result)], None, next)
  }

  /** A finished run: the final state, the writes, the outcome, and how many
      lines the loop itself read. */
  datatype Run<S> = Run(state: S, trace: seq<Write>, outcome: Outcome, consumed: nat)

  /** `Repl`: prompt, read a line, dispatch it; an exhausted input ends the
      loop with the scanner error. */
  function Repl<S, V>(sub: SubCommands<S, V>, s: S, lines: seq<string>, prefix: string): (run: Run<S>)
    ensures |lines| == 0 ==> run == Run(s, [Prefix(prefix)], ScanFailed, 0)
    ensures run.consumed <= |lines|
    ensures |run.trace| > 0 && run.trace[0] == Prefix(prefix)
    ensures run.outcome == Clean ==> run.consumed > 0 && run.trace[|run.trace| - 1].Printed?
    decreases |lines|
  {
    if |lines| == 0 then Run(s, [Prefix(prefix)], ScanFailed, 0)
    else
      var t := Eval(sub, s, lines[0], lines[1..]);
      var ws := [Prefix(prefix)] + t.writes;
      if t.stop.Some? then Run(t.state, ws, t.stop.value, 1)
      else
        var tail := Repl(sub, t.state, t.next, prefix);
        Run(tail.state, ws + tail.trace, tail.outcome, tail.consumed + 1)
  }

  function CountPrefix(ws: seq<Write>): nat {
    if ws == [] then 0 else (if ws[0].Prefix? then 1 else 0) + CountPrefix(ws[1..])
  }

  lemma {:induction false} CountPrefixAppend(a: seq<Write>, b: seq<Write>)
    ensures CountPrefix(a + b) == CountPrefix(a) + CountPrefix(b)
    decreases |a|
  {
    if a != [] {
      assert (a + b)[1..] == a[1..] + b;
      CountPrefixAppend(a[1..], b);
    } else {
      assert a + b == b;
    }
  }

  /** A turn never writes the prompt. */
  lemma CountPrefixTurn(ws: seq<Write>)
    requires TurnWrites(ws)
    ensures CountPrefix(ws) == 0
  {
    assert CountPrefix(ws[1..]) == if |ws| == 2 then CountPrefix(ws[2..]) else 0;
  }

  /** The prompt is written once per line the loop reads, plus once more
      when it finds the input exhausted. */
  lemma {:induction false} ReplPromptsOncePerRead<S, V>(sub: SubCommands<S, V>, s: S, lines: seq<string>, prefix: string)
    ensures var run := Repl(sub, s, lines, prefix);
            CountPrefix(run.trace) == run.consumed + (if run.outcome == ScanFailed then 1 else 0)
    decreases |lines|
  {
    if |lines| > 0 {
      var t := Eval(sub, s, lines[0], lines[1..]);
      var ws := [Prefix(prefix)] + t.writes;
      CountPrefixTurn(t.writes);
      CountPrefixAppend([Prefix(prefix)], t.writes);
      if t.stop.None? {
        var tail := Repl(sub, t.state, t.next, prefix);
        ReplPromptsOncePerRead(sub, t.state, t.next, prefix);
        CountPrefixAppend(ws, tail.trace);
      }
    }
  }

  /** A line naming no command, the empty line included, gets the
      diagnostic, runs no handler and leaves the state alone; the loop goes
      on with the next line. */
  lemma ReplSkipsUnknown<S, V>(sub: SubCommands<S, V>, s: S, line: string, rest: seq<string>, prefix: string)
    requires TrimSpace(line) !in sub
    ensures var run := Repl(sub, s, [line] + rest, prefix);
            var tail := Repl(sub, s, rest, prefix);
            && run.trace == [Prefix(prefix)] + [Invalid(line)] + tail.trace
            && run.state == tail.state && run.outcome == tail.outcome
  {
    ReplContinues(sub, s, line, rest, prefix, s, [Invalid(line)], rest);
  }

  lemma {:induction false} OutputAppend(a: seq<Write>, b: seq<Write>)
    ensures Output(a + b) == Output(a) + Output(b)
    decreases |a|
  {
    if a == [] {
      assert a + b == b;
    } else {
      assert (a + b)[1..] == a[1..] + b;
      OutputAppend(a[1..], b);
    }
  }

  /** On the output stream, an unknown line shows as the prompt and one
      diagnostic line quoting the line as typed, before whatever the rest
      of the run writes. */
  lemma ReplUnknownText<S, V>(sub: SubCommands<S, V>, s: S, line: string, rest: seq<string>, prefix: string)
    requires TrimSpace(line) !in sub
    ensures Output(Repl(sub, s, [line] + rest, prefix).trace)
            == prefix + ("invalid subcommand: " + Quote(line) + "\n") + Output(Repl(sub, s, rest, prefix).trace)
  {
    ReplSkipsUnknown(sub, s, line, rest, prefix);
    OutputAppend([Prefix(prefix)] + [Invalid(line)], Repl(sub, s, rest, prefix).trace);
    OutputInvalid(prefix, line);
  }

  lemma OutputInvalid(prefix: string, line: string)
    ensures Output([Prefix(prefix)] + [Invalid(line)]) == prefix + ("invalid subcommand: " + Quote(line) + "\n")
  {
    var d := "invalid subcommand: " + Quote(line) + "\n";
    var head := [Prefix(prefix)] + [Invalid(line)];
    assert head[1..] == [Invalid(line)] && [Invalid(line)][1..] == [];
    assert Output([Invalid(line)]) == d + Output([]);
    assert d + Output([]) == d;
    assert Output(head) == prefix + Output([Invalid(line)]);
  }

  /** `Repl` on input that starts with `line`, one turn unrolled. */
  lemma ReplFirstLine<S, V>(sub: SubCommands<S, V>, s: S, line: string, rest: seq<string>, prefix: string)
    ensures var t := Eval(sub, s, line, rest);
            var run := Repl(sub, s, [line] + rest, prefix);
            && (t.stop.Some? ==> run == Run(t.state, [Prefix(prefix)] + t.writes, t.stop.value, 1))
            && (t.stop.None? ==>
                  var tail := Repl(sub, t.state, t.next, prefix);
                  run == Run(tail.state, [Prefix(prefix)] + t.writes + tail.trace, tail.outcome, tail.consumed + 1))
  {
    var lines := [line] + rest;
    assert lines[0] == line && lines[1..] == rest;
  }

  /** A first line whose turn does not stop the loop is followed by the run
      over the lines the turn left unread. */
  lemma ReplContinues<S, V>(sub: SubCommands<S, V>, s: S, line: string, rest: seq<string>, prefix: string,
                            s': S, ws: seq<Write>, next: seq<string>)
    requires Eval(sub, s, line, rest) == Turn(s', ws, None, next)
    ensures var run := Repl(sub, s, [line] + rest, prefix);
            var tail := Repl(sub, s', next, prefix);
            run == Run(tail.state, [Prefix(prefix)] + ws + tail.trace, tail.outcome, tail.consumed + 1)
  {
    var lines := [line] + rest;
    assert lines[0] == line && lines[1..] == rest;
  }

  /** The same, for input given as one sequence of lines. */
  lemma ReplContinuesLines<S, V>(sub: SubCommands<S, V>, s: S, lines: seq<string>, prefix: string,
                                 s': S, ws: seq<Write>, next: seq<string>)
    requires |lines| > 0 && Eval(sub, s, lines[0], lines[1..]) == Turn(s', ws, None, next)
    ensures var run := Repl(sub, s, lines, prefix);
            var tail := Repl(sub, s', next, prefix);
            run == Run(tail.state, [Prefix(prefix)] + ws + tail.trace, tail.outcome, tail.consumed + 1)
  {
  }

  /** A line naming no command leaves the loop running. */
  lemma EvalUnknown<S, V>(sub: SubCommands<S, V>, s: S, line: string, rest: seq<string>)
    requires TrimSpace(line) !in sub
    ensures Eval(sub, s, line, rest).stop.None?
  {
  }

  /** The registered exit command ends the loop cleanly, printing its empty
      result. */
  lemma EvalExit<S, V>(sub: SubCommands<S, V>, s: S, line: string, rest: seq<string>)
    requires TrimSpace(line) in sub && sub[TrimSpace(line)].f == ExitCmd
    ensures Eval(sub, s, line, rest) == Turn(s, [Echo(""), Printed("")], Some(Clean), rest)
  {
  }

  /** The lookup key is the whole line: surrounding blanks are ignored, but
      "exit" followed by an argument is not the `exit` command. */
  lemma ReplExitLine<S, V>(s: S, pad1: string, pad2: string, rest: seq<string>, prefix: string)
    requires AllSpace(pad1) && AllSpace(pad2)
    ensures Repl(SubNewWithBase<S, V>(), s, [pad1 + "exit" + pad2] + rest, prefix)
            == Run(s, [Prefix(prefix), Echo(""), Printed("")], Clean, 1)
  {
    TrimSpacePadding(pad1, "exit", pad2);
    ExitKey();
    ReplExitKey<S, V>(s, pad1 + "exit" + pad2, rest, prefix);
  }

  lemma ReplExitKey<S, V>(s: S, line: string, rest: seq<string>, prefix: string)
    requires TrimSpace(line) == "exit"
    ensures Repl(SubNewWithBase<S, V>(), s, [line] + rest, prefix)
            == Run(s, [Prefix(prefix), Echo(""), Printed("")], Clean, 1)
  {
    var sub := SubNewWithBase<S, V>();
    EvalExit(sub, s, line, rest);
    ReplFirstLine(sub, s, line, rest, prefix);
  }

  lemma ReplExitArgument<S, V>(s: S, rest: seq<string>, prefix: string)
    ensures Repl(SubNewWithBase<S, V>(), s, ["exit now"] + rest, prefix).trace[..2]
            == [Prefix(prefix), Invalid("exit now")]
  {
    var sub := SubNewWithBase<S, V>();
    var line := "exit now";
    assert |line| == 8;
    assert line !in sub.Keys;
    Trimmed(line);
    ReplUnknownHead(sub, s, line, rest, prefix);
  }

  /** The first two writes for a line naming no command. */
  lemma ReplUnknownHead<S, V>(sub: SubCommands<S, V>, s: S, line: string, rest: seq<string>, prefix: string)
    requires TrimSpace(line) !in sub
    ensures Repl(sub, s, [line] + rest, prefix).trace[..2] == [Prefix(prefix), Invalid(line)]
  {
    ReplSkipsUnknown(sub, s, line, rest, prefix);
  }

  /** Any handler that returns the exit signal, built in or not, has its
      echo and then its result written, and the loop ends cleanly in the
      handler's state after reading that one line. */
  lemma ReplEndsOnExitSignal<S, V>(sub: SubCommands<S, V>, s: S, lines: seq<string>, prefix: string)
    requires |lines| > 0 && TrimSpace(lines[0]) in sub
    requires Call(sub, TrimSpace(lines[0]), s, lines[1..]).status == ValidExit
    ensures var reply := Call(sub, TrimSpace(lines[0]), s, lines[1..]);
            Repl(sub, s, lines, prefix)
            == Run(reply.state, [Prefix(prefix), Echo(reply.echo), Printed(reply.result)], Clean, 1)
  {
    var reply := Call(sub, TrimSpace(lines[0]), s, lines[1..]);
    var t := Eval(sub, s, lines[0], lines[1..]);
    assert t == Turn(reply.state, [Echo(reply.echo), Printed(reply.result)], Some(Clean), lines[1..]);
    assert [Prefix(prefix)] + t.writes == [Prefix(prefix), Echo(reply.echo), Printed(reply.result)];
  }

  /** A handler that returns an error other than the exit signal ends the
      loop with that error, and no handler result is printed. */
  lemma ReplStopsOnError<S, V>(sub: SubCommands<S, V>, s: S, lines: seq<string>, prefix: string)
    requires |lines| > 0 && TrimSpace(lines[0]) in sub
    requires Call(sub, TrimSpace(lines[0]), s, lines[1..]).status.Failure?
    ensures var reply := Call(sub, TrimSpace(lines[0]), s, lines[1..]);
            var run := Repl(sub, s, lines, prefix);
            && run.outcome == Failed(reply.status.msg) && run.state == reply.state
            && forall i :: 0 <= i < |run.trace| ==> !run.trace[i].Printed?
  {
    var reply := Call(sub, TrimSpace(lines[0]), s, lines[1..]);
    var t := Eval(sub, s, lines[0], lines[1..]);
    assert t == Turn(reply.state, [Echo(reply.echo)], Some(Failed(reply.status.msg)), lines[1..]);
    assert Repl(sub, s, lines, prefix).trace == [Prefix(prefix)] + [Echo(reply.echo)];
  }

  /** With only the base commands registered, input without an `exit` line
      never ends cleanly: every line is answered and the loop ends with the
      scanner error when the input runs out. */
  lemma {:induction false} BaseReplNeedsExit<S, V>(s: S, lines: seq<string>, prefix: string)
    requires forall i :: 0 <= i < |lines| ==> TrimSpace(lines[i]) != "exit"
    ensures var run := Repl(SubNewWithBase<S, V>(), s, lines, prefix);
            run.outcome == ScanFailed && run.consumed == |lines| && run.state == s
    decreases |lines|
  {
    if |lines| > 0 {
      var sub := SubNewWithBase<S, V>();
      var key := TrimSpace(lines[0]);
      var ws: seq<Write>;
      if key == "help" {
        ws := [Echo(""), Printed(Help(sub, SortedNames(sub.Keys)))];
        EvalHelp(sub, s, lines[0], lines[1..]);
      } else {
        assert key !in sub;
        ws := [Invalid(lines[0])];
      }
      ReplContinuesLines(sub, s, lines, prefix, s, ws, lines[1..]);
      BaseReplNeedsExit<S, V>(s, lines[1..], prefix);
    }
  }

  /** A line naming the help command prints the listing of the registry
      as it stands. */
  lemma ReplHelpLine<S, V>(sub: SubCommands<S, V>, s: S, line: string, rest: seq<string>, prefix: string)
    requires TrimSpace(line) in sub && sub[TrimSpace(line)].f == HelpCmd
    ensures var run := Repl(sub, s, [line] + rest, prefix);
            |run.trace| >= 3 && run.trace[2] == Printed(Help(sub, SortedNames(sub.Keys)))
  {
    var text := Help(sub, SortedNames(sub.Keys));
    EvalHelp(sub, s, line, rest);
    ReplPrintsThird(sub, s, line, rest, prefix, text);
  }

  /** When the first line's turn is an empty echo and a printed `text`, the
      third write of the run is that text. */
  lemma ReplPrintsThird<S, V>(sub: SubCommands<S, V>, s: S, line: string, rest: seq<string>, prefix: string, text: string)
    requires Eval(sub, s, line, rest) == Turn(s, [Echo(""), Printed(text)], None, rest)
    ensures var run := Repl(sub, s, [line] + rest, prefix);
            |run.trace| >= 3 && run.trace[2] == Printed(text)
  {
    ReplContinues(sub, s, line, rest, prefix, s, [Echo(""), Printed(text)], rest);
    var tail := Repl(sub, s, rest, prefix);
    assert ([Prefix(prefix)] + [Echo(""), Printed(text)] + tail.trace)[2] == Printed(text);
  }

  /** A registered handler that succeeds has its result printed, and the
      loop goes on after the lines it read. */
  lemma EvalSuccess<S, V>(sub: SubCommands<S, V>, s: S, line: string, rest: seq<string>,
                          f: (Option<V>, S, seq<string>) -> Reply<S>)
    requires TrimSpace(line) in sub && sub[TrimSpace(line)].f == Func(f)
    requires f(sub[TrimSpace(line)].value, s, rest).status == Success
    requires f(sub[TrimSpace(line)].value, s, rest).used <= |rest|
    ensures var reply := f(sub[TrimSpace(line)].value, s, rest);
            Eval(sub, s, line, rest)
            == Turn(reply.state, [Echo(reply.echo), Printed(reply.result)], None, rest[reply.used..])
  {
  }

  /** A word with no white space at either end is its own key. */
  lemma Trimmed(w: string)
    requires |w| > 0 && !IsSpace(w[0]) && !IsSpace(w[|w| - 1])
    ensures TrimSpace(w) == w
  {
    TrimLeftStable(w);
    TrimRightStable(w);
  }

  lemma ExitKey()
    ensures TrimSpace("exit") == "exit"
  {
    Trimmed("exit");
  }

  lemma HelpKey()
    ensures TrimSpace("help") == "help"
  {
    Trimmed("help");
  }

  /** The registered help command prints the listing and reads nothing. */
  lemma EvalHelp<S, V>(sub: SubCommands<S, V>, s: S, line: string, rest: seq<string>)
    requires TrimSpace(line) in sub && sub[TrimSpace(line)].f == HelpCmd
    ensures Eval(sub, s, line, rest) == Turn(s, [Echo(""), Printed(Help(sub, SortedNames(sub.Keys)))], None, rest)
  {
    assert rest[0..] == rest;
  }

  /** The same, for input given as one sequence of lines. */
  lemma ReplHelpLines<S, V>(sub: SubCommands<S, V>, s: S, lines: seq<string>, prefix: string)
    requires |lines| > 0 && TrimSpace(lines[0]) in sub && sub[TrimSpace(lines[0])].f == HelpCmd
    ensures var run := Repl(sub, s, lines, prefix);
            |run.trace| >= 3 && run.trace[2] == Printed(Help(sub, SortedNames(sub.Keys)))
  {
    assert lines == [lines[0]] + lines[1..];
    ReplHelpLine(sub, s, lines[0], lines[1..], prefix);
  }

  /** A help line prints the help text of every registered command. */
  lemma ReplHelpListsEntry<S, V>(sub: SubCommands<S, V>, s: S, lines: seq<string>, prefix: string, k: string)
    requires |lines| > 0 && TrimSpace(lines[0]) in sub && sub[TrimSpace(lines[0])].f == HelpCmd
    requires k in sub
    ensures var run := Repl(sub, s, lines, prefix);
            && |run.trace| >= 3 && run.trace[2].Printed?
            && Infix(HelpBlock(k, sub[k].helpmsg), run.trace[2].text)
  {
    ReplHelpLines(sub, s, lines, prefix);
  }

  /** `help` lists a command registered after `SubNewWithBase`. */
  lemma HelpListsLaterCommands<S, V>(s: S, key: string, v: Option<V>, f: Handler<S, V>, help: string,
                                     rest: seq<string>, prefix: string)
    requires key != "help"
    ensures var sub := Addf(SubNewWithBase<S, V>(), key, v, f, help);
            var run := Repl(sub, s, ["help"] + rest, prefix);
            && |run.trace| >= 3 && run.trace[2].Printed?
            && Infix(HelpBlock(key, help), run.trace[2].text)
  {
    var sub := Addf(SubNewWithBase<S, V>(), key, v, f, help);
    var lines := ["help"] + rest;
    assert lines[0] == "help";
    assert "help" in sub && sub["help"].f == HelpCmd;
    HelpKey();
    ReplHelpListsEntry(sub, s, lines, prefix, key);
  }

  /** ... and still lists the base `exit` command next to it. */
  lemma HelpKeepsBaseCommands<S, V>(s: S, key: string, v: Option<V>, f: Handler<S, V>, help: string,
                                    rest: seq<string>, prefix: string)
    requires key != "help" && key != "exit"
    ensures var sub := Addf(SubNewWithBase<S, V>(), key, v, f, help);
            var run := Repl(sub, s, ["help"] + rest, prefix);
            && |run.trace| >= 3 && run.trace[2].Printed?
            && Infix(HelpBlock("exit", "call exit"), run.trace[2].text)
  {
    var sub := Addf(SubNewWithBase<S, V>(), key, v, f, help);
    var lines := ["help"] + rest;
    assert lines[0] == "help";
    assert "help" in sub && sub["help"].f == HelpCmd;
    assert "exit" in sub && sub["exit"].helpmsg == "call exit";
    HelpKey();
    ReplHelpListsEntry(sub, s, lines, prefix, "exit");
  }
}

=== FILE: listing.dfy ===
/** Byte-wise string order and the sorted enumeration of a finite set of
    names. `ioutil.ReadDir` returns directory entries sorted by name with
    Go's `<` on strings, which compares UTF-8 bytes; on valid text that is
    the same as comparing code points, which is what `Below` does. */
module Listing {

  /** `a` sorts no later than `b`. */
  predicate Below(a: string, b: string)
    decreases |a|
  {
    |a| == 0 || (|b| > 0 && (a[0] < b[0] || (a[0] == b[0] && Below(a[1..], b[1..]))))
  }

  lemma {:induction false} BelowTotal(a: string, b: string)
    ensures Below(a, b) || Below(b, a)
    decreases |a|
  {
    if |a| > 0 && |b| > 0 && a[0] == b[0] {
      BelowTotal(a[1..], b[1..]);
    }
  }

  lemma {:induction false} BelowAntisymmetric(a: string, b: string)
    requires Below(a, b) && Below(b, a)
    ensures a == b
    decreases |a|
  {
    if |a| > 0 {
      BelowAntisymmetric(a[1..], b[1..]);
      assert a == [a[0]] + a[1..];
      assert b == [b[0]] + b[1..];
    }
  }

  lemma {:induction false} BelowTransitive(a: string, b: string, c: string)
    requires Below(a, b) && Below(b, c)
    ensures Below(a, c)
    decreases |a|
  {
    if |a| > 0 && a[0] == b[0] && b[0] == c[0] {
      BelowTransitive(a[1..], b[1..], c[1..]);
    }
  }

  predicate IsLeast(m: string, names: set<string>) {
    m in names && forall n :: n in names ==> Below(m, n)
  }

  lemma {:induction false} LeastExists(names: set<string>)
    requires names != {}
    ensures exists m :: IsLeast(m, names)
    decreases names
  {
    var x :| x in names;
    if names != {x} {
      LeastExists(names - {x});
      var m :| IsLeast(m, names - {x});
      BelowTotal(x, m);
      if Below(x, m) {
        forall n | n in names
          ensures Below(x, n)
        {
          if n != x {
            BelowTransitive(x, m, n);
          } else {
            BelowTotal(x, x);
          }
        }
        assert IsLeast(x, names);
      } else {
        assert IsLeast(m, names);
      }
    } else {
      BelowTotal(x, x);
      assert IsLeast(x, names);
    }
  }

  lemma LeastUnique(names: set<string>)
    ensures forall m, m' :: IsLeast(m, names) && IsLeast(m', names) ==> m == m'
  {
    forall m, m' | IsLeast(m, names) && IsLeast(m', names)
      ensures m == m'
    {
      BelowAntisymmetric(m, m');
    }
  }

  predicate Sorted(xs: seq<string>) {
    forall i, j :: 0 <= i < j < |xs| ==> Below(xs[i], xs[j])
  }

  predicate Distinct(xs: seq<string>) {
    forall i, j :: 0 <= i < j < |xs| ==> xs[i] != xs[j]
  }

  /** `xs` lists every element of `names` exactly once. */
  predicate Enumerates(xs: seq<string>, names: set<string>) {
    Distinct(xs) && (forall x :: x in xs ==> x in names) && (forall x :: x in names ==> x in xs)
  }

  /** The elements of `names` in ascending order, each once. */
  function SortedNames(names: set<string>): (r: seq<string>)
    ensures Enumerates(r, names) && Sorted(r)
    ensures |r| == |names|
    decreases names
  {
    if names == {} then []
    else
      LeastExists(names);
      LeastUnique(names);
      var m :| IsLeast(m, names);
      [m] + SortedNames(names - {m})
  }
}

=== FILE: maybe.dfy ===
/** Optional values and fallible results, the functional stand-ins for Go's
    nil pointers and `(value, error)` pairs. */
module Maybe {

  datatype Option<+T> = None | Some(value: T)

  datatype Result<+T, +E> = Ok(value: T) | Err(error: E)
}

=== FILE: record.dfy ===
/** One document, the `Gomem` struct of gomem.go, and the operations on it:
    construction from a path, the override flag, path validation, loading
    and saving. `title` and `content` are the two JSON fields; `base` (the
    file name, resolved against the working directory) and `override` are
    unexported and never serialised. */
module Record {
  import opened Maybe
  import opened Strs
  import opened Errs
  import opened Store

  datatype Gomem = Gomem(title: string, content: string, base: string, override: bool)

  /** `New`: only "*.json" paths are accepted, and only their last element
      is kept. */
  function New(fpath: string, override: bool): (r: Result<Gomem, Error>)
    ensures r.Ok? <==> HasSuffix(fpath, JsonExt)
    ensures r.Err? ==> r.error == NotJsonPath(fpath)
    ensures r.Ok? ==> r.value.title == "" && r.value.content == "" && r.value.override == override
    ensures r.Ok? ==> r.value.base == Base(fpath)
    ensures r.Ok? ==> HasSuffix(r.value.base, JsonExt) && '/' !in r.value.base
  {
    if !HasSuffix(fpath, JsonExt) then Err(NotJsonPath(fpath))
    else
      BaseOfJsonPath(fpath);
      Ok(Gomem("", "", Base(fpath), override))
  }

  /** The examples gomem_test.go expects of `New`. */
  lemma NewExamples()
    ensures New("", false).Err?
    ensures New("./test.go", false).Err?
    ensures New("./foo.json", false) == Ok(Gomem("", "", "foo.json", false))
    ensures New("/home/json/test/json.json", false) == Ok(Gomem("", "", "json.json", false))
  {
    NewRelative();
    NewNested();
  }

  lemma NewRelative()
    ensures New("./foo.json", false) == Ok(Gomem("", "", "foo.json", false))
  {
    var p := "./foo.json";
    assert HasSuffix(p, JsonExt);
    BaseAfterLastSlash(p, 1);
    assert p[2..] == "foo.json";
  }

  lemma NewNested()
    ensures New("/home/json/test/json.json", false) == Ok(Gomem("", "", "json.json", false))
  {
    var q := "/home/json/test/json.json";
    assert HasSuffix(q, JsonExt);
    BaseAfterLastSlash(q, 15);
    assert q[16..] == "json.json";
  }

  /** `ModOverride`: only the override flag changes. */
  function ModOverride(g: Gomem, b: bool): (r: Gomem)
    ensures IsOverride(r) == b
    ensures r.title == g.title && r.content == g.content && r.base == g.base
  {
    g.(override := b)
  }

  function IsOverride(g: Gomem): bool {
    g.override
  }

  /** `IsValidFilePath`: a "*.json" name that is absent or names a regular
      file. */
  function IsValidFilePath(g: Gomem, d: Disk): (r: Option<Error>)
    ensures r.None? <==> HasSuffix(g.base, JsonExt) && Stat(d, g.base) != Folder
    ensures !HasSuffix(g.base, JsonExt) ==> r == Some(NotJsonBase(g.base))
    ensures HasSuffix(g.base, JsonExt) && Stat(d, g.base) == Folder ==> r == Some(NotRegular(g.base))
  {
    if !HasSuffix(g.base, JsonExt) then Some(NotJsonBase(g.base))
    else
      match Stat(d, g.base)
      case Missing => None
      case File => None
      case Folder => Some(NotRegular(g.base))
  }

  /** The cases of gomem_test.go for `IsValidFilePath`, on a working
      directory that holds a directory "dir.json" and a regular file
      "tmp.json". */
  lemma IsValidFilePathExamples(d: Disk, data: FileData)
    requires Lookup(d, "dir.json") == Some(Directory)
    requires Lookup(d, "tmp.json") == Some(Regular(data))
    requires Lookup(d, "file.json").None?
    ensures IsValidFilePath(Gomem("", "", "", false), d) == Some(NotJsonBase(""))
    ensures IsValidFilePath(Gomem("", "", "/path/to/file.go", false), d).Some?
    ensures IsValidFilePath(Gomem("", "", "dir.json", false), d) == Some(NotRegular("dir.json"))
    ensures IsValidFilePath(Gomem("", "", "file.json", false), d).None?
    ensures IsValidFilePath(Gomem("", "", "tmp.json", false), d).None?
  {
    assert HasSuffix("dir.json", JsonExt);
    assert HasSuffix("file.json", JsonExt);
    assert HasSuffix("tmp.json", JsonExt);
    assert !HasSuffix("/path/to/file.go", JsonExt) by {
      assert "/path/to/file.go"[11] == 'l';
    }
  }

  /** The outcome of a load: the record as it is afterwards, and the error if
      any. A failed load may still have changed fields, as `json.Unmarshal`
      fills what it can before reporting a mistyped field. */
  datatype Loaded = Loaded(g: Gomem, err: Option<Error>)

  function Assign(prev: string, f: Field): string {
    match f
    case Text(s) => s
    case _ => prev
  }

  /** `json.Unmarshal(b, g)`: malformed input changes nothing; otherwise every
      string-valued known field is stored, and the first mistyped one is
      reported. */
  function Unmarshal(g: Gomem, data: FileData): (r: Loaded)
    ensures r.g.base == g.base && r.g.override == g.override
    ensures data.Malformed? ==> r == Loaded(g, Some(Syntax(data.reason)))
    ensures r.err.None? <==> data.Object? && !data.title.WrongType? && !data.content.WrongType?
    ensures data.Object? ==> r.g.title == (if data.title.Text? then data.title.s else g.title)
    ensures data.Object? ==> r.g.content == (if data.content.Text? then data.content.s else g.content)
  {
    match data
    case Malformed(reason) => Loaded(g, Some(Syntax(reason)))
    case Object(t, c) =>
      var g' := g.(title := Assign(g.title, t), content := Assign(g.content, c));
      if t.WrongType? then Loaded(g', Some(Mistyped(t.kind, "title")))
      else if c.WrongType? then Loaded(g', Some(Mistyped(c.kind, "content")))
      else Loaded(g', None)
  }

  /** `ReadFile`: reload title and content from the file named `g.base`. */
  function ReadFile(g: Gomem, d: Disk): (r: Loaded)
    ensures r.g.base == g.base && r.g.override == g.override
    ensures Lookup(d, g.base).None? ==> r == Loaded(g, Some(NoEntry("open", g.base)))
    ensures Lookup(d, g.base) == Some(Directory) ==> r == Loaded(g, Some(IsDirectory("read", g.base)))
    ensures Lookup(d, g.base).Some? && Lookup(d, g.base).value.Regular? ==>
              r == Unmarshal(g, Lookup(d, g.base).value.data)
    ensures r.err.None? <==> exists t, c :: Lookup(d, g.base) == Some(Regular(Object(t, c)))
                                            && !t.WrongType? && !c.WrongType?
  {
    match Lookup(d, g.base)
    case None => Loaded(g, Some(NoEntry("open", g.base)))
    case Some(Directory) => Loaded(g, Some(IsDirectory("read", g.base)))
    case Some(Regular(data)) => Unmarshal(g, data)
  }

  /** The file `name` exists, is a regular file and holds an object whose
      fields are not mistyped: exactly when loading it succeeds. */
  predicate Loadable(d: Disk, name: string) {
    match Lookup(d, name)
    case Some(Regular(Object(t, c))) => !t.WrongType? && !c.WrongType?
    case _ => false
  }

  /** Whether a load succeeds depends on the file named by the base alone. */
  lemma ReadFileSucceeds(g: Gomem, d: Disk)
    ensures ReadFile(g, d).err.None? <==> Loadable(d, g.base)
  {
  }

  /** What `json.MarshalIndent` writes for a record: both fields, as strings.
      (The byte layout is not modelled.) */
  function Encode(g: Gomem): (r: FileData)
    ensures Unmarshal(g, r) == Loaded(g, None)
  {
    Object(Text(g.title), Text(g.content))
  }

  /** Decoding an encoded record into any record takes over exactly its
      title and content, without error. */
  lemma EncodeDecode(g: Gomem, h: Gomem)
    ensures Unmarshal(h, Encode(g)) == Loaded(h.(title := g.title, content := g.content), None)
  {
  }

  /** The outcome of a save: the disk afterwards and the error if any. */
  datatype Written = Written(disk: Disk, err: Option<Error>)

  /** `WriteFile`: validate the name, refuse to replace an existing file
      unless `override` is set, then store the encoded record. */
  function WriteFile(g: Gomem, d: Disk): (r: Written)
    ensures r.err.Some? ==> r.disk == d
    ensures IsValidFilePath(g, d).Some? ==> r.err == IsValidFilePath(g, d)
    ensures r.err == Some(FileExists) <==>
              IsValidFilePath(g, d).None? && Stat(d, g.base) == File && !g.override
    ensures r.err.None? <==>
              IsValidFilePath(g, d).None? && (Stat(d, g.base) == Missing || g.override) && d.cwd in d.dirs
    ensures r.err.None? ==> Lookup(r.disk, g.base) == Some(Regular(Encode(g))) && OnlyChanged(d, r.disk, g.base)
  {
    match IsValidFilePath(g, d)
    case Some(e) => Written(d, Some(e))
    case None =>
      if Stat(d, g.base) != Missing && !IsOverride(g) then Written(d, Some(FileExists))
      else if d.cwd !in d.dirs then Written(d, Some(NoEntry("open", g.base)))
      else Written(Put(d, g.base, Regular(Encode(g))), None)
  }

  /** Saving and then loading the same file reproduces title and content,
      whatever the record that loads it held before. */
  lemma WriteThenRead(g: Gomem, h: Gomem, d: Disk)
    requires WriteFile(g, d).err.None?
    requires h.base == g.base
    ensures ReadFile(h, WriteFile(g, d).disk) == Loaded(h.(title := g.title, content := g.content), None)
  {
  }

  /** Loading the same file twice gives what loading it once gave. */
  lemma ReadFileIdempotent(g: Gomem, d: Disk)
    ensures ReadFile(g, d).err.None? ==> ReadFile(ReadFile(g, d).g, d) == ReadFile(g, d)
  {
  }
}

=== FILE: store.dfy ===
/** The file system as the document cache sees it: a current working
    directory and, for each directory path, the flat map from entry name to
    entry. Nothing descends into sub-directories, so a directory entry
    carries no contents. A regular file holds a JSON document, abstracted
    to the two fields the program decodes. */
module Store {
  import opened Maybe

  /** One JSON object member as `json.Unmarshal` sees it for a string field:
      missing (or `null`), a string, or a value of another JSON kind. */
  datatype Field = Absent | Text(s: string) | WrongType(kind: string)

  datatype FileData =
    | Object(title: Field, content: Field)
    | Malformed(reason: string)

  datatype Entry = Regular(data: FileData) | Directory

  type Dir = map<string, Entry>

  datatype Disk = Disk(cwd: string, dirs: map<string, Dir>)

  /** What `os.Stat` reports for a name relative to the working directory. */
  datatype Kind = Missing | File | Folder

  /** The entry a name relative to the working directory resolves to. */
  function Lookup(d: Disk, name: string): Option<Entry> {
    if d.cwd in d.dirs && name in d.dirs[d.cwd] then Some(d.dirs[d.cwd][name]) else None
  }

  function Stat(d: Disk, name: string): (k: Kind)
    ensures k == Missing <==> Lookup(d, name).None?
    ensures k == Folder <==> Lookup(d, name) == Some(Directory)
  {
    match Lookup(d, name)
    case None => Missing
    case Some(Regular(_)) => File
    case Some(Directory) => Folder
  }

  /** Stores `e` under `name` in the working directory. */
  function Put(d: Disk, name: string, e: Entry): (r: Disk)
    requires d.cwd in d.dirs
    ensures Lookup(r, name) == Some(e)
    ensures OnlyChanged(d, r, name)
  {
    d.(dirs := d.dirs[d.cwd := d.dirs[d.cwd][name := e]])
  }

  /** `r` differs from `d` at most in the entry `name` of the working
      directory. */
  ghost predicate OnlyChanged(d: Disk, r: Disk, name: string) {
    && r.cwd == d.cwd
    && r.dirs.Keys == d.dirs.Keys
    && (forall p :: p in d.dirs && p != d.cwd ==> r.dirs[p] == d.dirs[p])
    && (forall n :: n != name ==> Lookup(r, n) == Lookup(d, n))
  }

  /** Every directory entry name is a single path element, as the
      operating system guarantees. */
  ghost predicate PlainNames(d: Disk) {
    forall p, n :: p in d.dirs && n in d.dirs[p] ==> n != "" && '/' !in n
  }
}

=== FILE: strs.dfy ===
/** The handful of Go standard-library string functions the program relies on:
    `strings.HasSuffix`, `strings.TrimSpace`, `filepath.Base` (Unix flavour),
    `strconv.Quote` as used by the `%q` verb, and `fmt.Sprintln` of one string. */
module Strs {

  /** The file-name extension every document carries. */
  const JsonExt: string := ".json"

  predicate HasSuffix(s: string, suffix: string) {
    |suffix| <= |s| && s[|s| - |suffix|..] == suffix
  }

  /** `unicode.IsSpace`: the Latin-1 white space plus the Unicode White_Space
      code points above U+00FF. */
  predicate IsSpace(c: char) {
    || c == ' ' || c == '\t' || c == '\n' || c == '\U{000B}' || c == '\U{000C}' || c == '\r'
    || c == '\U{0085}' || c == '\U{00A0}' || c == '\U{1680}'
    || ('\U{2000}' <= c <= '\U{200A}')
    || c == '\U{2028}' || c == '\U{2029}' || c == '\U{202F}' || c == '\U{205F}' || c == '\U{3000}'
  }

  predicate AllSpace(s: string) {
    forall i :: 0 <= i < |s| ==> IsSpace(s[i])
  }

  function TrimLeft(s: string): (r: string)
    ensures |r| <= |s| && r == s[|s| - |r|..]
    ensures AllSpace(s[..|s| - |r|])
    ensures |r| == 0 || !IsSpace(r[0])
  {
    if |s| > 0 && IsSpace(s[0]) then TrimLeft(s[1..]) else s
  }

  function TrimRight(s: string): (r: string)
    ensures |r| <= |s| && r == s[..|r|]
    ensures AllSpace(s[|r|..])
    ensures |r| == 0 || !IsSpace(r[|r| - 1])
  {
    if |s| > 0 && IsSpace(s[|s| - 1]) then TrimRight(s[..|s| - 1]) else s
  }

  /** `strings.TrimSpace`: the infix of `s` left after dropping white space
      at both ends. */
  function TrimSpace(s: string): (r: string)
    ensures |r| == 0 || (!IsSpace(r[0]) && !IsSpace(r[|r| - 1]))
    ensures |r| <= |s|
  {
    TrimRight(TrimLeft(s))
  }

  /** `TrimSpace` keeps an infix of `s`: it starts right after the leading
      white space, which `TrimSpaceTail` completes at the other end. */
  lemma TrimSpaceInfix(s: string)
    ensures var l := |s| - |TrimLeft(s)|; var r := TrimSpace(s);
            && l + |r| <= |s| && r == s[l..l + |r|] && AllSpace(s[..l])
  {
  }

  /** What `TrimSpace` drops after its result is white space. */
  lemma TrimSpaceTail(s: string)
    ensures var l := |s| - |TrimLeft(s)|; var r := TrimSpace(s);
            l + |r| <= |s| && AllSpace(s[l + |r|..])
  {
    var t := TrimLeft(s);
    var r := TrimRight(t);
    var l := |s| - |t|;
    var x := s[l + |r|..];
    var y := t[|r|..];
    assert AllSpace(y);
    forall i | 0 <= i < |x|
      ensures IsSpace(x[i])
    {
      assert x[i] == y[i];
    }
  }

  lemma {:induction false} TrimLeftPadding(pad: string, s: string)
    requires AllSpace(pad)
    ensures TrimLeft(pad + s) == TrimLeft(s)
    decreases |pad|
  {
    if |pad| > 0 {
      assert (pad + s)[1..] == pad[1..] + s;
      TrimLeftPadding(pad[1..], s);
    } else {
      assert pad + s == s;
    }
  }

  lemma {:induction false} TrimRightPadding(s: string, pad: string)
    requires AllSpace(pad)
    ensures TrimRight(s + pad) == TrimRight(s)
    decreases |pad|
  {
    if |pad| > 0 {
      assert (s + pad)[..|s + pad| - 1] == s + pad[..|pad| - 1];
      TrimRightPadding(s, pad[..|pad| - 1]);
    } else {
      assert s + pad == s;
    }
  }

  lemma TrimLeftStable(s: string)
    requires |s| == 0 || !IsSpace(s[0])
    ensures TrimLeft(s) == s
  {
  }

  lemma TrimRightStable(s: string)
    requires |s| == 0 || !IsSpace(s[|s| - 1])
    ensures TrimRight(s) == s
  {
  }

  lemma {:induction false} TrimLeftAppendSpaces(s: string, post: string)
    requires AllSpace(post)
    ensures TrimLeft(s + post) == if TrimLeft(s) == [] then [] else TrimLeft(s) + post
    decreases |s|
  {
    if s == [] {
      assert s + post == post + [];
      TrimLeftPadding(post, []);
    } else if IsSpace(s[0]) {
      assert (s + post)[1..] == s[1..] + post;
      TrimLeftAppendSpaces(s[1..], post);
    }
  }

  /** White space added around a word does not change what `TrimSpace`
      returns: the key looked up for "  exit " is "exit". */
  lemma {:induction false} TrimSpacePadding(pre: string, s: string, post: string)
    requires AllSpace(pre) && AllSpace(post)
    ensures TrimSpace(pre + s + post) == TrimSpace(s)
  {
    assert pre + s + post == pre + (s + post);
    TrimLeftPadding(pre, s + post);
    assert TrimLeft(pre + s + post) == TrimLeft(s + post);
    TrimLeftAppendSpaces(s, post);
    if TrimLeft(s) != [] {
      TrimRightPadding(TrimLeft(s), post);
      assert TrimRight(TrimLeft(s + post)) == TrimRight(TrimLeft(s));
    }
  }

  /** The part of a path after its last '/', i.e. the last path element of a
      path without trailing slashes. */
  function LastElement(p: string): (r: string)
    ensures '/' !in r
    ensures |r| <= |p| && r == p[|p| - |r|..]
    ensures |r| < |p| ==> p[|p| - |r| - 1] == '/'
  {
    if |p| == 0 || p[|p| - 1] == '/' then []
    else LastElement(p[..|p| - 1]) + [p[|p| - 1]]
  }

  function StripTrailingSlashes(p: string): (r: string)
    ensures |r| <= |p| && r == p[..|r|]
    ensures |r| == 0 || r[|r| - 1] != '/'
    ensures forall i :: |r| <= i < |p| ==> p[i] == '/'
  {
    if |p| > 0 && p[|p| - 1] == '/' then StripTrailingSlashes(p[..|p| - 1]) else p
  }

  /** `filepath.Base` on Unix: "." for the empty path, "/" for a path made
      only of slashes, otherwise the last element once trailing slashes are
      removed. */
  function Base(p: string): (r: string)
    ensures |r| > 0
    ensures p == "" ==> r == "."
    ensures p != "" && r != "/" ==>
              var j := |StripTrailingSlashes(p)|;
              && |r| <= j <= |p| && r == p[j - |r|..j] && '/' !in r
              && (j == |r| || p[j - |r| - 1] == '/')
              && forall i :: j <= i < |p| ==> p[i] == '/'
  {
    if p == "" then "."
    else
      var q := StripTrailingSlashes(p);
      if q == "" then "/" else LastElement(q)
  }

  /** The last element keeps every trailing character up to the last slash. */
  lemma {:induction false} LastElementKeepsTail(p: string, k: nat)
    requires k <= |p|
    requires forall i :: |p| - k <= i < |p| ==> p[i] != '/'
    ensures |LastElement(p)| >= k
    decreases |p|
  {
    if k > 0 {
      LastElementKeepsTail(p[..|p| - 1], k - 1);
    }
  }

  /** A path that ends in ".json" has a base that also ends in ".json", that
      contains no '/', and that is a suffix of the path. */
  lemma BaseOfJsonPath(p: string)
    requires HasSuffix(p, JsonExt)
    ensures HasSuffix(Base(p), JsonExt)
    ensures '/' !in Base(p)
    ensures |Base(p)| <= |p| && Base(p) == p[|p| - |Base(p)|..]
  {
    assert p[|p| - 1] == 'n';
    assert StripTrailingSlashes(p) == p;
    forall i | |p| - 5 <= i < |p|
      ensures p[i] != '/'
    {
      assert p[i] == JsonExt[i - (|p| - 5)];
    }
    LastElementKeepsTail(p, 5);
    var b := Base(p);
    assert b[|b| - 5..] == p[|p| - 5..];
  }

  /** The last element is exactly what follows the last slash. */
  lemma {:induction false} LastElementAfterSlash(p: string, k: nat)
    requires k < |p| && p[|p| - k - 1] == '/'
    requires forall i :: |p| - k <= i < |p| ==> p[i] != '/'
    ensures LastElement(p) == p[|p| - k..]
    decreases k
  {
    if k > 0 {
      var q := p[..|p| - 1];
      LastElementAfterSlash(q, k - 1);
      assert q[|q| - (k - 1)..] + [p[|p| - 1]] == p[|p| - k..];
    }
  }

  /** The base of a path is what follows its last slash, when something does. */
  lemma BaseAfterLastSlash(p: string, i: nat)
    requires i + 1 < |p| && p[i] == '/'
    requires forall j :: i < j < |p| ==> p[j] != '/'
    ensures Base(p) == p[i + 1..]
  {
    assert StripTrailingSlashes(p) == p;
    LastElementAfterSlash(p, |p| - i - 1);
  }

  /** The base of a name without any '/' is the name itself. */
  lemma BaseOfPlainName(n: string)
    requires n != "" && '/' !in n
    ensures Base(n) == n
  {
    assert StripTrailingSlashes(n) == n;
    LastElementKeepsTail(n, |n|);
  }

  /** One character as `strconv.Quote` writes it between the quotes; a
      line break is written as an escape, never raw. */
  function QuoteChar(c: char): (r: string)
    ensures '\n' !in r
    ensures ' ' <= c && c != '"' && c != '\\' && c != '\U{007F}' ==> r == [c]
  {
    if c == '"' then "\\\""
    else if c == '\\' then "\\\\"
    else if c == '\U{0007}' then "\\a"
    else if c == '\U{0008}' then "\\b"
    else if c == '\U{000C}' then "\\f"
    else if c == '\n' then "\\n"
    else if c == '\r' then "\\r"
    else if c == '\t' then "\\t"
    else if c == '\U{000B}' then "\\v"
    else if c < ' ' || c == '\U{007F}' then "\\x" + [HexDigit(c as int / 16), HexDigit(c as int % 16)]
    else [c]
  }

  function HexDigit(d: int): char
    requires 0 <= d < 16
  {
    "0123456789abcdef"[d]
  }

  function QuoteBody(s: string): (r: string)
    ensures '\n' !in r
  {
    if s == [] then [] else QuoteChar(s[0]) + QuoteBody(s[1..])
  }

  /** The `%q` rendering of a string: always one line between quotes. */
  function Quote(s: string): (r: string)
    ensures |r| >= 2 && r[0] == '"' && r[|r| - 1] == '"'
    ensures '\n' !in r
  {
    "\"" + QuoteBody(s) + "\""
  }

  /** Printable text with no quote, backslash or DEL is quoted as it is. */
  lemma QuotePlain(s: string)
    requires forall i :: 0 <= i < |s| ==> ' ' <= s[i] && s[i] != '"' && s[i] != '\\' && s[i] != '\U{007F}'
    ensures Quote(s) == "\"" + s + "\""
  {
    QuoteBodyPlain(s);
  }

  lemma {:induction false} QuoteBodyPlain(s: string)
    requires forall i :: 0 <= i < |s| ==> ' ' <= s[i] && s[i] != '"' && s[i] != '\\' && s[i] != '\U{007F}'
    ensures QuoteBody(s) == s
    decreases |s|
  {
    if s != [] {
      QuoteBodyPlain(s[1..]);
      assert [s[0]] + s[1..] == s;
    }
  }

  /** `fmt.Sprintln` applied to each string in turn, concatenated. */
  function Lines(xs: seq<string>): string {
    if xs == [] then "" else xs[0] + "\n" + Lines(xs[1..])
  }

  lemma {:induction false} LinesAppend(xs: seq<string>, ys: seq<string>)
    ensures Lines(xs + ys) == Lines(xs) + Lines(ys)
    decreases |xs|
  {
    if xs == [] {
      assert xs + ys == ys;
    } else {
      assert (xs + ys)[1..] == xs[1..] + ys;
      LinesAppend(xs[1..], ys);
    }
  }

  /** The position of the first line break of `t`, or `|t|`. */
  function LineEnd(t: string): (i: nat)
    ensures i <= |t|
    ensures forall j :: 0 <= j < i ==> t[j] != '\n'
    ensures i < |t| ==> t[i] == '\n'
  {
    if t == "" || t[0] == '\n' then 0 else 1 + LineEnd(t[1..])
  }

  /** The lines of a text, each without its terminating line break. */
  function SplitLines(t: string): seq<string>
    decreases |t|
  {
    if t == "" then []
    else
      var i := LineEnd(t);
      if i == |t| then [t] else [t[..i]] + SplitLines(t[i + 1..])
  }

  /** The first line break after a text without one is the one appended. */
  lemma {:induction false} LineEndAfter(x: string, rest: string)
    requires '\n' !in x
    ensures LineEnd(x + "\n" + rest) == |x|
    decreases |x|
  {
    if x != "" {
      assert (x + "\n" + rest)[1..] == x[1..] + "\n" + rest;
      LineEndAfter(x[1..], rest);
    }
  }

  /** Splitting peels off one line that holds no line break. */
  lemma SplitLinesCons(x: string, rest: string)
    requires '\n' !in x
    ensures SplitLines(x + "\n" + rest) == [x] + SplitLines(rest)
  {
    var t := x + "\n" + rest;
    LineEndAfter(x, rest);
    assert t[..|x|] == x;
    assert t[|x| + 1..] == rest;
  }

  /** `Lines` and `SplitLines` are inverse on strings without line breaks. */
  lemma {:induction false} SplitLinesOfLines(xs: seq<string>)
    ensures (forall j :: 0 <= j < |xs| ==> '\n' !in xs[j]) ==> SplitLines(Lines(xs)) == xs
    decreases |xs|
  {
    if xs != [] && forall j :: 0 <= j < |xs| ==> '\n' !in xs[j] {
      var ys := xs[1..];
      assert forall j :: 0 <= j < |ys| ==> ys[j] == xs[j + 1];
      assert Lines(xs) == xs[0] + "\n" + Lines(ys);
      SplitLinesCons(xs[0], Lines(ys));
      SplitLinesOfLines(ys);
      assert [xs[0]] + ys == xs;
    }
  }
}
